=== FILE: README.md ===
# Editor consistency core in Dafny

This project models the consistency logic of `js/editor.js`, a small
in-browser rich-text editor. The model has four parts.

- **Selection offsets.** `toolkit.selection.saveSelection` turns a range into two
  character offsets over the text nodes of the editable container.
  `restoreSelection` walks the container with an explicit stack to put the
  range back. `atEndOfNode` asks whether anything follows a range's end.
- **Tree repair.** `removeNode` unwraps a node. `swapNode` replaces a node with
  a fresh `P` that holds its children. `cleanUp` normalises text, strips
  `class` and `style`, unwraps whitespace-only and `BR`/`SPAN`/`DIV` elements,
  and turns orphaned `LI`s into paragraphs.
- **Ancestors and commands.** `findParentNodes` maps node names to ancestors.
  `removeIncompatibles` and the incompatibility table decide which ancestors a
  block command unwraps. The toggle decisions of `executeStyle` choose the
  native editing command. `addHref` and `cancelLink` restore the saved offsets,
  unlink, and finish in `exitLinkMode`, which restores them again and collapses
  the range to its end. The `linkMode` flag is a small state machine driven by
  toolbar buttons, the link field's Enter and the cancel button.
- **Enter key.** The decision of `enterHandler`, with `isList`, `isHeading` and
  the two list-shortcut prefix strips.

The document is an immutable tree: `Node = Text(text) | Elem(name, attrs, kids)`.
`textContent` is `Content`. The text nodes in document order are `TextNodes`.
Whitespace follows the ECMAScript 5.1 definition of `\s` and `String.prototype.trim`
(sections 7.2, 7.3 and 15.10.2.12 of ECMA-262 5.1). It therefore includes the
no-break space U+00A0 and U+FEFF.

Modules: `Wrappers` (Option), `Strings` (whitespace, trim, ASCII lower-casing,
flattening), `Tree`, `Selection`, `Repair`, `Normalizer`, `Ancestors`,
`Commands`, `Keys`, and `Editor` (how saved offsets survive `cleanUp`).

Four behaviours of the code are easy to misread, and the model states them as they are:

- `cleanUp` is not idempotent. Unwrapping a `SPAN` can leave two text nodes
  side by side, and only the next run merges them. `CleanUpTwice` states
  exactly what a second run changes. `CleanUpNotIdempotent` gives a concrete
  tree.
- `findParentNodes` maps each name to the *outermost* node of that name,
  not the nearest, because later writes overwrite earlier ones. With nested
  quotes, only the outer `BLOCKQUOTE` is unwrapped (`NestedQuoteUnwrapsOuter`).
- `isBlockStyle` is true for every string, so `cleanUp` runs after every
  command, bold and italic included (`Commands.IsBlockStyle`).
- Restoring saved offsets needs a text node. If a command leaves the
  editable element without any text node, the restoring loop in `addHref`,
  `cancelLink` and `exitLinkMode` never stops, even for the offsets `{0, 0}`
  (`Editor.EmptyEditorSelectionLost`, `Selection.RestoreUndefined`).

## Model

| member | source | states |
|---|---|---|
| Strings.TrimEmptyIffBlank | js/editor.js:419 | `trim()` gives the empty string exactly when every character is ECMAScript whitespace |
| Strings.TrimIsMiddle | js/editor.js:419 | `trim()` returns a contiguous middle of the string, starting where the leading whitespace ends, with no whitespace at either end |
| Tree.ContentIsTextNodes | js/editor.js:229 | the `textContent` the whitespace test reads is the concatenation of the node's text nodes in document order |
| Tree.TotalIsContentLength | js/editor.js:86-109 | the text-node lengths the restoring walk adds up total the length of `textContent` |
| Selection.SaveSelection | js/editor.js:58-70 | `end` is the number of characters before the end point and `end - start` is the length of the selected text; so `start <= end <= total`, and a collapsed range gives `start == end` |
| Selection.SavedOffsetsCut | js/editor.js:58-70 | the saved offsets cut the container's text into exactly the text before the range and the selected text |
| Selection.FirstCover | js/editor.js:90-97 | the first text node at or after `k` whose span `[charIndex, charIndex + length]` holds the offset; no earlier node holds it |
| Selection.ScanWithin | js/editor.js:86-109 | wherever the restoring loop stops, the end anchor lies in a text node at or after where the scan began, with an offset at most its length; a start it placed lies in no later node than the end, and a start already placed is kept |
| Selection.RestoreWithin | js/editor.js:86-109 | a restored range has both anchors inside text nodes and its start in no later node than its end |
| Selection.VisitTextSteps | js/editor.js:88-98 | one text node of the loop: the node and character counters advance past it; the start is placed in it, at the saved start minus the characters before the node, exactly when not yet found and the node covers the start offset, and is never moved afterwards; the end is placed likewise exactly when the start is found and the node covers the end offset, which stops the loop |
| Selection.RestoreIsFirstCover | js/editor.js:86-109 | the scan of the restoring loop equals the reference placement by first covering text node |
| Selection.RestoreDefined | js/editor.js:86-109 | with at least one text node and `start <= end <= total`, the loop stops with a range |
| Selection.RestoreUndefined | js/editor.js:86-109 | with no text node, or an offset beyond the total length, the loop never stops |
| Selection.RestoreAnchors | js/editor.js:90-97 | the start goes into the first text node covering `start`, at `start` minus the characters before it; the end goes into the first covering node at or after that one |
| Selection.RestoreCollapsed | js/editor.js:90-97 | a collapsed saved selection is restored as a collapsed range |
| Selection.SaveRestore | js/editor.js:58-109 | restoring valid offsets and saving again gives the same offsets |
| Selection.RestoreSave | js/editor.js:58-109 | saving a range, restoring it and saving again gives the same offsets |
| Selection.PushChildren | js/editor.js:101-105 | the inner loop pushes `undefined` (index `length`) and then the children last to first, so that they pop in document order |
| Selection.PushedChildren | js/editor.js:99-106 | after the push, the stack yields the children's text nodes first, then what it held before |
| Selection.RestoreSelection | js/editor.js:72-113 | the stack walk ends on every container with a text node when `start <= end <= total`; it computes the reference placement, and re-saving the range gives back the offsets |
| Selection.AtEndOfNode | js/editor.js:115-122 | true exactly when nothing of the end container's text follows the end point; for a text node, when the offset is its length |
| Repair.RemoveChild | js/editor.js:452-463 | the node is gone and its children sit, in order, where it was; the other children are unchanged; unwrapping an element keeps the parent's text |
| Repair.SwapChild | js/editor.js:464-476 | the node is replaced in place by an attribute-free `P` holding its children in order; nothing else moves and the parent's text is unchanged |
| Normalizer.StripAttributes | js/editor.js:222-227 | no `class` or `style` attribute remains, and every other attribute is kept |
| Normalizer.MergeTexts | js/editor.js:220 | `normalize` on a sibling list keeps the elements in order and the text between each pair of neighbouring elements (before the first and after the last included), and leaves no empty and no adjacent text nodes |
| Normalizer.MergedUnique | js/editor.js:220 | a sibling list without empty or adjacent text nodes is determined by its elements and the text between them, so those properties fix what `normalize` returns |
| Normalizer.MergeNothing | js/editor.js:220 | an already normalised sibling list is left unchanged |
| Normalizer.Classify | js/editor.js:228-242 | unwrap exactly the whitespace-only non-`HR` elements and the `BR`, `SPAN` and `DIV` elements; swap exactly the non-blank `LI`s whose original parent is neither `UL` nor `OL` |
| Normalizer.PhasesAgree | js/editor.js:214-254 | marking everything, then applying all removals, then all swaps computes the one-pass reference |
| Normalizer.MarkSeqSound | js/editor.js:218-243 | the marking pass keeps the text and strips `class` and `style` everywhere. With its verdicts erased, each node is its input with every sibling list below it normalised: the same elements in order and the same text between them. Every element's verdict is the one its original parent gives it |
| Normalizer.UnwrapAllSound | js/editor.js:245-249 | the removal pass keeps the text and leaves no node flagged for removal; its markup is the input's markup with exactly the start and end tags of the flagged elements deleted, so every text node and every other element, with its verdict, name, attributes and place, is kept |
| Normalizer.TokensDetermine | js/editor.js:245-249 | two sibling lists with the same markup are equal, so the markup fixes what the removal pass returns |
| Normalizer.UnwrapIsRemoveChild | js/editor.js:452-463 | when exactly one child of a list is flagged for removal, the removal pass on that list is one `removeNode` of that child |
| Normalizer.SwapIsSwapChild | js/editor.js:464-476 | when exactly one child of a list is flagged for swapping, the swap pass on that list is one `swapNode` of that child |
| Normalizer.SwapAllSound | js/editor.js:250-254 | the swap pass keeps the text and every node in its place, with the same children, at every depth; the nodes flagged for swapping become attribute-free `P`s and every other node keeps its name and attributes |
| Normalizer.CleanUp | js/editor.js:205-256 | without a live element nothing happens; otherwise the live element keeps its name, attributes and text, and every element below it ends up tidy |
| Normalizer.CleanSeqSound | js/editor.js:214-254 | cleaning keeps the text; no output element has `class`/`style`, is `BR`/`SPAN`/`DIV`, or is whitespace-only unless `HR`; an `LI` stays only inside `UL`/`OL` |
| Normalizer.ListItemsInListsSeq | js/editor.js:238-241 | a list item in the output sits directly in a `UL` or `OL` |
| Normalizer.BlankNoListItemSeq | js/editor.js:229-230 | whitespace-only content never yields a list item, since such elements are unwrapped |
| Normalizer.CleanUpIsReference | js/editor.js:214-254 | `cleanUp` of the live element is the one-pass reference applied to its children |
| Normalizer.CleanTidySeq | js/editor.js:214-254 | on tidy elements, cleaning only merges text runs |
| Normalizer.CleanUpTwice | js/editor.js:205-256 | a second `cleanUp` only merges the text runs the first left split |
| Normalizer.CleanUpFixpoint | js/editor.js:205-256 | a live element whose descendants are tidy and normalised is left unchanged |
| Normalizer.CleanUpNotIdempotent | js/editor.js:220-249 | `<div><p>a<span>b</span></p></div>` is cleaned to two text nodes in `P`, which a second run merges |
| Ancestors.LastIndex | js/editor.js:479-482 | the last position of a name along the walk; no later position holds it |
| Ancestors.ParentNodes | js/editor.js:477-484 | each name met from the anchor up to the last node with a parent is mapped to the outermost node of that name; no other name is mapped |
| Ancestors.FindParentNodes | js/editor.js:477-484 | the walk, one write per node from the anchor upwards, builds that map |
| Ancestors.RemoveIncompatibles | js/editor.js:270-279 | the nodes unwrapped are exactly the mapped nodes whose name is in the list, at most one per listed name |
| Ancestors.UnwrapsOutermost | js/editor.js:270-279 | along the path, the unwrapped nodes are exactly the outermost node of each incompatible name |
| Ancestors.NestedQuoteUnwrapsOuter | js/editor.js:477-484 | with a quote inside a quote, only the outer `BLOCKQUOTE` is unwrapped |
| Commands.IsBlockStyle | js/editor.js:258-260 | true for every style, so `cleanUp` follows every command |
| Commands.HeadingTag | js/editor.js:304-309 | heading level 1 to 6 names `H1` to `H6`: an `H` followed by the level's digit |
| Commands.ExecuteStyle | js/editor.js:261-399 | the command always ends with `cleanUp`. Bold and italic issue `bold` and `italic`. Outside its own kind of block, a heading issues `formatBlock` with its tag, a quote `formatBlock blockquote`, a list `insertunorderedlist` or `insertorderedlist`; inside it they return to a paragraph. A quote or heading unwraps exactly the outermost `BLOCKQUOTE`/`LI`/`OL`/`UL` ancestors; a list unwraps only on Chrome and when not toggling off; bold, italic and link unwrap nothing. A link outside an `A` unlinks and creates a link to `/` and turns link mode on; inside an `A` it does what `cancelLink` does and ends link mode |
| Commands.ExecuteList | js/editor.js:323-379 | inside the same list type: `formatBlock p` and `outdent` and nothing unwrapped; otherwise the incompatible ancestors are unwrapped, on Chrome only, and the native list command of that type is issued |
| Commands.HeadingKeepsOwnHeading | js/editor.js:310-322 | a heading command never unwraps the heading it toggles |
| Commands.QuoteOffUnwrapsQuote | js/editor.js:290-303 | toggling a quote off unwraps the `BLOCKQUOTE` and still issues `formatBlock p` and `outdent` |
| Commands.LinkTarget | js/editor.js:419-424 | no link for a whitespace-only URL; otherwise the URL as typed if it begins with `http://` or `https://`, else `http://` plus the URL |
| Commands.LinkTargetIdempotent | js/editor.js:419-424 | normalising a link target twice changes nothing |
| Commands.AddHref | js/editor.js:411-451 | restores the saved offsets and unlinks first; creates a link to the normalised URL exactly when the URL is not whitespace-only; ends with `exitLinkMode`, restoring the offsets again and collapsing the range to its end; link mode is off afterwards; with a whitespace-only URL it does exactly what `cancelLink` does |
| Commands.LinkModeRun | js/editor.js:380-451 | after any run of button presses, link-field submissions and cancels, link mode is on exactly when some link button pressed outside a link was followed only by buttons for other commands, or it was on at the start and only such buttons followed |
| Keys.IsList | js/editor.js:485-488 | true exactly when an `LI` lies on the focus node's walk, whatever node is passed |
| Keys.IsHeading | js/editor.js:489-492 | true exactly for `h1` to `h6` in either case |
| Keys.IsBlockParent | js/editor.js:503 | the parent names that open a new paragraph are exactly `BLOCKQUOTE` and `h1` to `h6` in either case |
| Keys.StripOrderedPrefix | js/editor.js:514-517 | drops a prefix exactly when the text starts with `1.` and a whitespace character, and then drops those three characters |
| Keys.StripOrderedPrefixInverse | js/editor.js:514-517 | stripping `1.`, a whitespace character and the text gives back the text |
| Keys.StripBulletPrefix | js/editor.js:519-522 | drops `-` plus whitespace, or else one leading whitespace character, and nothing otherwise |
| Keys.StripBulletPrefixInverse | js/editor.js:519-522 | stripping `-`, a whitespace character and the text gives back the text |
| Keys.TextAction | js/editor.js:509-528 | whitespace-only text gives a rule when the caret's node is a direct child of the live element, and otherwise a prevented Enter whose `insertBefore` throws, so nothing happens; text starting `1` gives the ordered shortcut; text starting `-` gives the bullet shortcut; other text gives `cleanUp` and a new paragraph |
| Keys.Enter | js/editor.js:493-534 | not intercepted inside a list, or away from both node edges outside a heading or quote; a heading or quote parent gets a new paragraph; otherwise the caret node's text decides |
| Keys.TenItemsMakesList | js/editor.js:514-518 | `10 items` at the start of a paragraph starts an ordered list with its text unchanged |
| Keys.NoBreakSpaceMakesRule | js/editor.js:509-512 | a text node holding only a no-break space, directly inside the live element, gets a rule |
| Keys.NoBreakSpaceInParagraphSwallowed | js/editor.js:509-512 | the same text inside a paragraph is not a child of the live element, so Enter is prevented and no rule appears |
| Keys.MiddlePressNotIntercepted | js/editor.js:508 | a press in the middle of a node's text is left to the browser |
| Editor.SavedSelectionSurvivesCleanUp | js/editor.js:395-399 | offsets saved in the live element before a command, when the native command left at least as much text, can be restored after `cleanUp` exactly when the tree still holds a text node; re-saving the restored range gives the same offsets, and when the command kept the text the range selects the same characters. With no text node the restoring loop never stops |
| Editor.EmptyEditorSelectionLost | js/editor.js:86-109 | a caret in an empty text node is saved as `{0, 0}`; if the command leaves no text node, restoring those offsets never stops |

## Left out

- The effects of `document.execCommand` (`bold`, `italic`, `formatBlock`, `outdent`, `insertorderedlist`, `insertunorderedlist`, `createLink`, `unlink`) are browser primitives. Only the command name and value chosen are modelled (`Commands.Native`).
- The Firefox 442186 retry in `execList` is left out. It depends on a raw error code and on `contentEditable`. The re-save of the selection after a list command is also left out.
- `isChrome` sniffs the user agent and is a boolean parameter here.
- The toolbar UI (`placeUI`, `showUI`, `hideUI`, `updateButtonState`, `resetButtonState`, `initButtons`, `bindUI`), the `link-mode` class on the toolbar, and the link field's focus timer are left out. They are layout and class-name plumbing.
- Event wiring and timers are left out (`initListeners`, `highlightListener`, key and focus listeners, `toolkit.on`). So are `newParagraph`, `init`, `initEditableElements`, `toolkit.extend`, `forEach` and `log`: bootstrapping glue and live-selection plumbing.
- `backspaceHandler` only calls `cleanUp` on Chrome, and `cleanUp` is modelled.
- The dispatch entries `heading` and `list` can also be reached by a button whose `data-command` names them directly, with no argument. That path, and unknown command names, which throw, are not modelled.
- Selection boundaries are modelled only in text nodes of the container, identified by their position in document order. Boundaries in element nodes and anchors outside the container are not modelled. `Selection.AtEndOfNode` does accept an element container.
- `Keys.IsHeading`: `toLowerCase` is modelled for ASCII letters only. No other character lowers to `h` or to a digit, so the result is the same.
- `Strings.IsWs`: U+180E is not whitespace here, following Unicode 6.3 and later.
- Attribute names are compared exactly. The source's HTML attribute lookup is case-insensitive.
- `Normalizer.CleanUp` models the live element as present or absent. The tree changes it makes are returned as a new tree rather than made in place.
- `Commands.AddHref`: the `RestoreSaved` steps that `addHref`, `cancelLink` and `exitLinkMode` record are not evaluated against the live element of that moment, which may have changed since line 395 saved the offsets. `Selection.RestoreDefined` and `Selection.RestoreUndefined` state, for any tree, when such a restore stops.
- `exitLinkMode` also clears and blurs the link field, and `cancelLink` re-reads `window.getSelection()`. These are UI and live-selection plumbing.
- `Editor.SavedSelectionSurvivesCleanUp` takes the tree after the native command as a parameter, because the effects of `execCommand` are not modelled.
- `Keys.Enter` takes as a boolean parameter whether the caret's node is a direct child of the live element. That decides whether `insertBefore` on line 512 succeeds.
- `Keys.Enter` returns which action is taken. The actions themselves are `Repair`/`Normalizer` operations or native commands, and `newParagraph` is left out as noted.
- Strings are sequences of Unicode characters. JavaScript counts UTF-16 code units, so for text outside the Basic Multilingual Plane the saved offsets of the source count each such character twice. The model does not represent surrogate pairs.

=== FILE: ancestors.dfy ===
/**
  `findParentNodes` and `removeIncompatibles` of js/editor.js.

  The walk starts at the selection's anchor node and climbs through
  `parentNode`. It is modelled by the list of node names met on the way:
  `path[0]` is the anchor itself and `path[|path| - 1]` is the topmost node,
  the one without a parent (the document). A node on the path is identified
  by its depth, its index in `path`.
 */
module Ancestors {

  /** The names the walk records: every node from the anchor up to, but not including, the parentless top. */
  function Walked(path: seq<string>): seq<string>
    requires |path| > 0
  {
    path[..|path| - 1]
  }

  /** The index of the last occurrence of `name` in `s`. */
  function LastIndex(s: seq<string>, name: string): (i: nat)
    requires name in s
    ensures i < |s| && s[i] == name
    ensures forall j :: i < j < |s| ==> s[j] != name
  {
    if s[|s| - 1] == name then |s| - 1 else LastIndex(s[..|s| - 1], name)
  }

  /**
    The map `findParentNodes` builds: each name met on the walk is mapped to
    the outermost node of that name, because later writes overwrite earlier ones.
   */
  function ParentNodes(path: seq<string>): (r: map<string, nat>)
    requires |path| > 0
    ensures forall name :: name in r <==> name in Walked(path)
    ensures forall name :: name in r ==> r[name] < |path| - 1 && path[r[name]] == name
    ensures forall name, j :: name in r && r[name] < j < |path| - 1 ==> path[j] != name
  {
    var walked := Walked(path);
    map name | name in walked :: LastIndex(walked, name)
  }

  /** The walk itself, one write per node from the anchor upwards. */
  method FindParentNodes(path: seq<string>) returns (names: map<string, nat>)
    requires |path| > 0
    ensures names == ParentNodes(path)
  {
    names := map[];
    var i := 0;
    while i < |path| - 1
      invariant 0 <= i <= |path| - 1
      invariant forall name :: name in names <==> name in path[..i]
      invariant forall name :: name in names ==> names[name] == LastIndex(path[..i], name)
    {
      assert path[..i + 1][..i] == path[..i];
      names := names[path[i] := i];
      i := i + 1;
    }
    assert path[..i] == Walked(path);
  }

  /**
    `removeIncompatibles`: the depths of the recorded nodes whose name is in
    `incompatibles`, in the order of that list; each one is then unwrapped.
   */
  function RemoveIncompatibles(parents: map<string, nat>, incompatibles: seq<string>): (r: seq<nat>)
    ensures |r| <= |incompatibles|
    ensures forall d :: d in r <==> exists name :: name in incompatibles && name in parents && parents[name] == d
  {
    if incompatibles == [] then []
    else
      var name := incompatibles[0];
      var rest := RemoveIncompatibles(parents, incompatibles[1..]);
      assert forall x :: x in incompatibles <==> x == name || x in incompatibles[1..];
      if name in parents then [parents[name]] + rest else rest
  }

  /** The node at depth `d` is recorded and no node above it (below the top) has the same name. */
  predicate Outermost(path: seq<string>, d: nat) {
    && d < |path| - 1
    && forall j :: d < j < |path| - 1 ==> path[j] != path[d]
  }

  /**
    Read along the path, the nodes unwrapped are exactly those whose name is
    incompatible and that are the outermost node of that name below the top.
   */
  lemma UnwrapsOutermost(path: seq<string>, incompatibles: seq<string>)
    requires |path| > 0
    ensures forall d: nat :: d in RemoveIncompatibles(ParentNodes(path), incompatibles) <==>
      Outermost(path, d) && path[d] in incompatibles
  {
    var parents := ParentNodes(path);
    forall d: nat | Outermost(path, d) && path[d] in incompatibles
      ensures d in RemoveIncompatibles(parents, incompatibles)
    {
      var name := path[d];
      assert name in Walked(path);
      assert parents[name] == d;
    }
  }

  /** The outermost node of a name is the one the map records for that name. */
  lemma OutermostRecorded(path: seq<string>, d: nat)
    requires |path| > 0 && Outermost(path, d)
    ensures path[d] in ParentNodes(path) && ParentNodes(path)[path[d]] == d
  {
    assert Walked(path)[d] == path[d];
  }

  /** A name met nowhere below the top is not recorded. */
  lemma AbsentNotRecorded(path: seq<string>, name: string)
    requires |path| > 0 && forall i :: 0 <= i < |path| - 1 ==> path[i] != name
    ensures name !in ParentNodes(path)
  {
  }

  lemma NestedQuoteParents()
    ensures var parents := ParentNodes(["#text", "P", "BLOCKQUOTE", "BLOCKQUOTE", "BODY", "HTML", "#document"]);
      && "BLOCKQUOTE" in parents && parents["BLOCKQUOTE"] == 3
      && "LI" !in parents && "OL" !in parents && "UL" !in parents
  {
    QuoteAtDepth(["#text", "P", "BLOCKQUOTE", "BLOCKQUOTE", "BODY", "HTML", "#document"], 3);
  }

  /** A `BLOCKQUOTE` at depth `d` with none above it and no list names on the walk. */
  lemma QuoteAtDepth(path: seq<string>, d: nat)
    requires d < |path| - 1 && path[d] == "BLOCKQUOTE"
    requires forall j :: d < j < |path| - 1 ==> path[j] != "BLOCKQUOTE"
    requires forall j :: 0 <= j < |path| - 1 ==> path[j] != "LI" && path[j] != "OL" && path[j] != "UL"
    ensures var parents := ParentNodes(path);
      && "BLOCKQUOTE" in parents && parents["BLOCKQUOTE"] == d
      && "LI" !in parents && "OL" !in parents && "UL" !in parents
  {
    OutermostRecorded(path, d);
    AbsentNotRecorded(path, "LI");
    AbsentNotRecorded(path, "OL");
    AbsentNotRecorded(path, "UL");
  }

  lemma QuoteListRemoval(parents: map<string, nat>)
    requires "BLOCKQUOTE" in parents && parents["BLOCKQUOTE"] == 3
    requires "LI" !in parents && "OL" !in parents && "UL" !in parents
    ensures RemoveIncompatibles(parents, ["BLOCKQUOTE", "LI", "OL", "UL"]) == [3]
  {
    assert RemoveIncompatibles(parents, ["UL"]) == [] by {
      assert ["UL"][1..] == [];
    }
    assert RemoveIncompatibles(parents, ["OL", "UL"]) == [] by {
      assert ["OL", "UL"][1..] == ["UL"];
    }
    assert RemoveIncompatibles(parents, ["LI", "OL", "UL"]) == [] by {
      assert ["LI", "OL", "UL"][1..] == ["OL", "UL"];
    }
    assert ["BLOCKQUOTE", "LI", "OL", "UL"][1..] == ["LI", "OL", "UL"];
  }

  /**
    With a quote nested in a quote, only the outer `BLOCKQUOTE` is recorded,
    so only the outer one is unwrapped.
   */
  lemma NestedQuoteUnwrapsOuter()
    ensures RemoveIncompatibles(
      ParentNodes(["#text", "P", "BLOCKQUOTE", "BLOCKQUOTE", "BODY", "HTML", "#document"]),
      ["BLOCKQUOTE", "LI", "OL", "UL"]) == [3]
  {
    NestedQuoteParents();
    QuoteListRemoval(ParentNodes(["#text", "P", "BLOCKQUOTE", "BLOCKQUOTE", "BODY", "HTML", "#document"]));
  }
}

=== FILE: commands.dfy ===
/**
  The decisions of `executeStyle`, `addHref` and `cancelLink` in
  js/editor.js: which ancestors are unwrapped, which native editing
  commands are issued, whether `cleanUp` follows, and how the `linkMode`
  flag moves. The native commands' own effect on the document is the
  browser's and is not modelled; only the calls are.
 */
module Commands {
  import opened Wrappers
  import opened Strings
  import opened Ancestors

  /** A call to `document.execCommand`: command name and value argument, if one is passed. */
  datatype Native = Native(command: string, value: Option<string>)

  /**
    One thing a command does to the document, in order: a native editing
    call, `restoreSelection` of the offsets saved by the last `executeStyle`
    into the live element, or collapsing the selection to its end.
   */
  datatype Step = Call(native: Native) | RestoreSaved | CollapseToEnd

  /** The toolbar commands, one per key of the dispatch table that a button reaches. */
  datatype Command = Bold | Italic | UnorderedList | OrderedList | Quote | Heading(level: nat) | Link

  predicate ValidCommand(c: Command) {
    c.Heading? ==> 1 <= c.level <= 6
  }

  /** The node name of a heading level, `H1` to `H6`. */
  function HeadingTag(level: nat): (r: string)
    requires 1 <= level <= 6
    ensures |r| == 2 && r[0] == 'H' && r[1] == "123456"[level - 1]
  {
    ['H', ('0' as int + level) as char]
  }

  /** The dispatch-table key of a command. */
  function CommandName(c: Command): string
    requires ValidCommand(c)
  {
    match c
    case Bold => "bold"
    case Italic => "italic"
    case UnorderedList => "ul"
    case OrderedList => "ol"
    case Quote => "quote"
    case Heading(level) => ['h', ('0' as int + level) as char]
    case Link => "a"
  }

  /** `isBlockStyle` as written: no string equals both `bold` and `italic`, so it holds for every style. */
  function IsBlockStyle(style: string): (r: bool)
    ensures r
  {
    style != "bold" || style != "italic"
  }

  /** The static table of ancestors each block command removes first. */
  const IncompatibleElements: map<string, seq<string>> := map[
    "UL" := ["BLOCKQUOTE", "P", "H1", "H2", "H3", "H4", "H5", "H6"],
    "OL" := ["BLOCKQUOTE", "P", "H1", "H2", "H3", "H4", "H5", "H6"],
    "BLOCKQUOTE" := ["LI", "OL", "UL"],
    "heading" := ["BLOCKQUOTE", "LI", "OL", "UL"]
  ]

  /** Turning a block back into a paragraph: `formatBlock p` then `outdent`. */
  const BackToParagraph: seq<Step> := [Call(Native("formatBlock", Some("p"))), Call(Native("outdent", None))]

  /** The browser's own unlink, issued by `addLink`, `addHref` and `cancelLink`. */
  const Unlink: Step := Call(Native("unlink", None))

  /** What one command does: ancestors unwrapped (by depth, in order), the steps taken, the new `linkMode`, and whether `cleanUp` runs. */
  datatype Effect = Effect(unwrap: seq<nat>, steps: seq<Step>, linkMode: bool, cleanUp: bool)

  /** The list node name a list command toggles. */
  function ListTag(c: Command): string
    requires c.UnorderedList? || c.OrderedList?
  {
    if c.UnorderedList? then "UL" else "OL"
  }

  /** The native command that makes a list of the given kind. */
  function ListInsert(c: Command): string
    requires c.UnorderedList? || c.OrderedList?
  {
    if c.UnorderedList? then "insertunorderedlist" else "insertorderedlist"
  }

  /**
    `executeStyle(c)` with the selection's anchor path, whether the browser
    is Chrome, and the current `linkMode`.
   */
  function ExecuteStyle(c: Command, path: seq<string>, isChrome: bool, linkMode: bool): (r: Effect)
    requires |path| > 0 && ValidCommand(c)
    ensures r.cleanUp
    ensures c.Bold? || c.Italic? || c.Link? ==> r.unwrap == []
    ensures c.Quote? || c.Heading? ==>
      forall d: nat :: d in r.unwrap <==> Outermost(path, d) && path[d] in IncompatibleElements["heading"]
    ensures c.UnorderedList? || c.OrderedList? ==>
      forall d: nat :: d in r.unwrap <==>
        && isChrome && ListTag(c) !in Walked(path)
        && Outermost(path, d) && path[d] in IncompatibleElements[ListTag(c)]
    ensures (c.UnorderedList? || c.OrderedList?) && !isChrome ==> r.unwrap == []
    ensures c.Bold? ==> r.steps == [Call(Native("bold", None))]
    ensures c.Italic? ==> r.steps == [Call(Native("italic", None))]
    ensures c.Heading? ==> (r.steps == BackToParagraph <==> HeadingTag(c.level) in Walked(path))
    ensures c.Heading? && HeadingTag(c.level) !in Walked(path) ==>
      r.steps == [Call(Native("formatBlock", Some(HeadingTag(c.level))))]
    ensures c.Quote? ==> (r.steps == BackToParagraph <==> "BLOCKQUOTE" in Walked(path))
    ensures c.Quote? && "BLOCKQUOTE" !in Walked(path) ==>
      r.steps == [Call(Native("formatBlock", Some("blockquote")))]
    ensures c.UnorderedList? || c.OrderedList? ==> (r.steps == BackToParagraph <==> ListTag(c) in Walked(path))
    ensures (c.UnorderedList? || c.OrderedList?) && ListTag(c) !in Walked(path) ==>
      r.steps == [Call(Native(ListInsert(c), None))]
    ensures c.Link? && "A" !in Walked(path) ==>
      r.steps == [Unlink, Call(Native("createLink", Some("/")))]
    ensures c.Link? && "A" in Walked(path) ==> r.steps == CancelLink.steps
    ensures r.linkMode <==> if c.Link? then "A" !in Walked(path) else linkMode
  {
    var parents := ParentNodes(path);
    var cleanUp := IsBlockStyle(CommandName(c));
    match c
    case Bold => Effect([], [Call(Native("bold", None))], linkMode, cleanUp)
    case Italic => Effect([], [Call(Native("italic", None))], linkMode, cleanUp)
    case Quote =>
      var inc := IncompatibleElements["heading"];
      UnwrapsOutermost(path, inc);
      var steps := if "BLOCKQUOTE" in parents then BackToParagraph
        else [Call(Native("formatBlock", Some("blockquote")))];
      Effect(RemoveIncompatibles(parents, inc), steps, linkMode, cleanUp)
    case Heading(level) =>
      var h := HeadingTag(level);
      var inc := IncompatibleElements["heading"];
      UnwrapsOutermost(path, inc);
      var steps := if h in parents then BackToParagraph else [Call(Native("formatBlock", Some(h)))];
      Effect(RemoveIncompatibles(parents, inc), steps, linkMode, cleanUp)
    case UnorderedList => ExecuteList(c, path, isChrome, linkMode)
    case OrderedList => ExecuteList(c, path, isChrome, linkMode)
    case Link =>
      // line 382 turns link mode on; `cancelLink` turns it off again
      if "A" in parents then Effect([], CancelLink.steps, CancelLink.linkMode, cleanUp)
      else Effect([], [Unlink, Call(Native("createLink", Some("/")))], true, cleanUp)
  }

  /** The `list` entry: toggle off inside the same list, otherwise (on Chrome) clear incompatible ancestors and insert. */
  function ExecuteList(c: Command, path: seq<string>, isChrome: bool, linkMode: bool): (r: Effect)
    requires |path| > 0 && (c.UnorderedList? || c.OrderedList?)
    ensures r.cleanUp && r.linkMode == linkMode
    ensures forall d: nat :: d in r.unwrap <==>
      && isChrome && ListTag(c) !in Walked(path)
      && Outermost(path, d) && path[d] in IncompatibleElements[ListTag(c)]
    ensures r.steps == BackToParagraph <==> ListTag(c) in Walked(path)
    ensures ListTag(c) !in Walked(path) ==> r.steps == [Call(Native(ListInsert(c), None))]
    ensures !isChrome ==> r.unwrap == []
  {
    var parents := ParentNodes(path);
    var tag := ListTag(c);
    var cleanUp := IsBlockStyle(CommandName(c));
    if tag in parents then Effect([], BackToParagraph, linkMode, cleanUp)
    else
      var inc := IncompatibleElements[tag];
      UnwrapsOutermost(path, inc);
      var unwrap := if isChrome then RemoveIncompatibles(parents, inc) else [];
      Effect(unwrap, [Call(Native(ListInsert(c), None))], linkMode, cleanUp)
  }

  /**
    The URL rule of `addHref`: no link for a whitespace-only field; otherwise
    the text as typed when it starts with `http://` or `https://`, else with
    `http://` put in front.
   */
  function LinkTarget(url: string): (r: Option<string>)
    ensures r.None? <==> IsBlank(url)
    ensures r.Some? ==> StartsWith(r.value, "http://") || StartsWith(r.value, "https://")
    ensures r.Some? && (StartsWith(url, "http://") || StartsWith(url, "https://")) ==> r.value == url
    ensures r.Some? && !(StartsWith(url, "http://") || StartsWith(url, "https://")) ==> r.value == "http://" + url
  {
    TrimEmptyIffBlank(url);
    if Trim(url) == "" then None
    else if StartsWith(url, "http://") || StartsWith(url, "https://") then Some(url)
    else
      assert ("http://" + url)[..7] == "http://";
      Some("http://" + url)
  }

  /** Normalising a link target a second time changes nothing. */
  lemma LinkTargetIdempotent(url: string)
    requires LinkTarget(url).Some?
    ensures LinkTarget(LinkTarget(url).value) == LinkTarget(url)
  {
    var t := LinkTarget(url).value;
    assert t[0] == 'h';
  }

  /**
    `exitLinkMode`: the flag drops, the saved offsets are restored into the
    live element and the selection collapses to its end.
   */
  const ExitLinkMode: seq<Step> := [RestoreSaved, CollapseToEnd]

  /** `cancelLink`: restore the saved offsets, unlink, and leave link mode. */
  const CancelLink: Effect := Effect([], [RestoreSaved, Unlink] + ExitLinkMode, false, false)

  /**
    `addHref`: restore the saved offsets, unlink, link to the normalised URL
    when there is one, and leave link mode. With a whitespace-only field it
    does exactly what `cancelLink` does.
   */
  function AddHref(url: string): (r: Effect)
    ensures !r.linkMode && !r.cleanUp && r.unwrap == []
    ensures |r.steps| >= 4 && r.steps[..2] == [RestoreSaved, Unlink]
    ensures r.steps[|r.steps| - 2..] == ExitLinkMode
    ensures r == CancelLink <==> IsBlank(url)
    ensures !IsBlank(url) ==> |r.steps| == 5 && r.steps[2] == Call(Native("createLink", LinkTarget(url)))
  {
    var target := LinkTarget(url);
    var link := if target.Some? then [Call(Native("createLink", target))] else [];
    Effect([], [RestoreSaved, Unlink] + link + ExitLinkMode, false, false)
  }

  /** What reaches the editor and can move `linkMode`: a toolbar button, the link field's Enter, the cancel button. */
  datatype Event =
    | Button(c: Command, path: seq<string>, isChrome: bool)
    | SubmitLink(url: string)
    | CancelButton

  predicate ValidEvent(ev: Event) {
    ev.Button? ==> |ev.path| > 0 && ValidCommand(ev.c)
  }

  /** The handler an event runs: `executeStyle` (line 197), `addHref` (636) or `cancelLink` (195). */
  function Handle(ev: Event, linkMode: bool): Effect
    requires ValidEvent(ev)
  {
    match ev
    case Button(c, path, isChrome) => ExecuteStyle(c, path, isChrome, linkMode)
    case SubmitLink(url) => AddHref(url)
    case CancelButton => CancelLink
  }

  /** A link button pressed outside any link: the event that turns link mode on. */
  predicate Opens(ev: Event) {
    ev.Button? && ev.c.Link? && |ev.path| > 0 && "A" !in Walked(ev.path)
  }

  /** A button for any other command: the events that leave link mode as it is. */
  predicate Keeps(ev: Event) {
    ev.Button? && !ev.c.Link?
  }

  /** Every event of a run is one the editor can receive. */
  predicate ValidRun(evs: seq<Event>) {
    forall i :: 0 <= i < |evs| ==> ValidEvent(evs[i])
  }

  /** The `linkMode` flag after handling the events in order, starting from `linkMode` (`false` after `init`, line 688). */
  function LinkModeAfter(evs: seq<Event>, linkMode: bool): bool
    requires ValidRun(evs)
  {
    if evs == [] then linkMode
    else Handle(evs[|evs| - 1], LinkModeAfter(evs[..|evs| - 1], linkMode)).linkMode
  }

  /** One event of the link-mode machine: it opens, keeps or closes the mode. */
  lemma LinkModeStep(ev: Event, linkMode: bool)
    requires ValidEvent(ev)
    ensures Handle(ev, linkMode).linkMode <==> Opens(ev) || (Keeps(ev) && linkMode)
  {
  }

  /** Some link button pressed outside a link was followed only by other buttons. */
  predicate OpenedLast(evs: seq<Event>) {
    exists i :: 0 <= i < |evs| && Opens(evs[i]) && forall j :: i < j < |evs| ==> Keeps(evs[j])
  }

  /** Only buttons for commands other than the link were pressed. */
  predicate OnlyKept(evs: seq<Event>) {
    forall j :: 0 <= j < |evs| ==> Keeps(evs[j])
  }

  lemma OpenedLastSnoc(front: seq<Event>, e: Event)
    ensures OpenedLast(front + [e]) <==> Opens(e) || (Keeps(e) && OpenedLast(front))
    ensures OnlyKept(front + [e]) <==> Keeps(e) && OnlyKept(front)
  {
    var evs := front + [e];
    var n := |front|;
    assert evs[n] == e;
    assert forall j :: 0 <= j < n ==> evs[j] == front[j];
    if Opens(e) {
      assert 0 <= n < |evs| && Opens(evs[n]);
    } else if Keeps(e) {
      if OpenedLast(front) {
        var i :| 0 <= i < n && Opens(front[i]) && forall j :: i < j < n ==> Keeps(front[j]);
        assert Opens(evs[i]) && forall j :: i < j < |evs| ==> Keeps(evs[j]);
      }
    } else {
      assert !Keeps(evs[n]);
    }
  }

  /**
    Link mode is on after a run exactly when some link button pressed outside
    a link was followed only by other buttons, or it was on at the start and
    only other buttons followed. `addHref`, `cancelLink` and a link button
    inside a link all close it.
   */
  lemma {:induction false} LinkModeRun(evs: seq<Event>, linkMode: bool)
    requires ValidRun(evs)
    ensures LinkModeAfter(evs, linkMode) <==> OpenedLast(evs) || (linkMode && OnlyKept(evs))
    decreases |evs|
  {
    if evs != [] {
      var n := |evs| - 1;
      var front, e := evs[..n], evs[n];
      assert evs == front + [e];
      assert ValidRun(front) by {
        forall i | 0 <= i < |front| ensures ValidEvent(front[i]) {
          assert front[i] == evs[i];
        }
      }
      LinkModeRun(front, linkMode);
      LinkModeStep(e, LinkModeAfter(front, linkMode));
      OpenedLastSnoc(front, e);
    }
  }

  /** A heading command never unwraps the heading it toggles. */
  lemma HeadingKeepsOwnHeading(level: nat, path: seq<string>, isChrome: bool, linkMode: bool)
    requires 1 <= level <= 6 && |path| > 0
    ensures forall d :: d in ExecuteStyle(Heading(level), path, isChrome, linkMode).unwrap ==>
      path[d] != HeadingTag(level)
  {
    var r := ExecuteStyle(Heading(level), path, isChrome, linkMode);
    var h := HeadingTag(level);
    var inc := IncompatibleElements["heading"];
    HeadingNotIncompatible(level);
    forall d | d in r.unwrap
      ensures path[d] != h
    {
      assert path[d] in inc;
    }
  }

  lemma HeadingNotIncompatible(level: nat)
    requires 1 <= level <= 6
    ensures HeadingTag(level) !in IncompatibleElements["heading"]
  {
    var h := HeadingTag(level);
    var inc := IncompatibleElements["heading"];
    assert inc == ["BLOCKQUOTE", "LI", "OL", "UL"];
    assert forall k :: 0 <= k < |inc| ==> inc[k][0] != 'H';
    assert h[0] == 'H';
  }

  /**
    Toggling a quote off inside a `BLOCKQUOTE` unwraps that quote first and
    then still issues `formatBlock p` and `outdent`, because the quote
    command reuses the heading's incompatibility list.
   */
  lemma QuoteOffUnwrapsQuote(path: seq<string>, isChrome: bool, linkMode: bool)
    requires |path| > 0 && "BLOCKQUOTE" in Walked(path)
    ensures var r := ExecuteStyle(Quote, path, isChrome, linkMode);
      && r.steps == BackToParagraph
      && exists d :: d in r.unwrap && path[d] == "BLOCKQUOTE"
  {
    var parents := ParentNodes(path);
    var d := parents["BLOCKQUOTE"];
    assert Outermost(path, d);
  }
}

=== FILE: editor.dfy ===
/**
  How the pieces meet in js/editor.js: `executeStyle` saves the selection
  as character offsets, runs a command and then `cleanUp`; `addHref`,
  `cancelLink` and `exitLinkMode` later restore the saved offsets in the
  cleaned tree.
 */
module Editor {
  import opened Wrappers
  import opened Tree
  import opened Selection
  import opened Normalizer

  /**
    `executeStyle` saves the selection in the live element as it is before
    the command (`live`), lets the browser run the native command (giving
    `mid`) and cleans up. When the command left at least as much text as
    before, the saved offsets can be restored in the cleaned tree exactly
    when that tree still holds a text node: then the restoring walk stops,
    and saving the restored range gives the same offsets back; with no text
    node the walk never stops. When the command kept the text itself, the
    restored range selects the same characters as the saved one.
   */
  lemma SavedSelectionSurvivesCleanUp(live: Node, b: Bounds, mid: Node)
    requires live.Elem? && mid.Elem? && ValidBounds(TextNodes(live), b)
    requires |Content(live)| <= |Content(mid)|
    ensures var saved := SaveSelection(TextNodes(live), b);
      var texts := TextNodes(CleanUp(Some(mid)).value);
      && (Restore(Lengths(texts), saved).Some? <==> texts != [])
      && (texts != [] ==>
            && ValidBounds(texts, Restore(Lengths(texts), saved).value)
            && SaveSelection(texts, Restore(Lengths(texts), saved).value) == saved
            && (Content(mid) == Content(live) ==>
                  SelectedText(texts, Restore(Lengths(texts), saved).value) == SelectedText(TextNodes(live), b)))
  {
    var saved := SaveSelection(TextNodes(live), b);
    var after := CleanUp(Some(mid)).value;
    var texts := TextNodes(after);
    ContentIsTextNodes(live);
    ContentIsTextNodes(after);
    if texts != [] {
      SaveRestore(texts, saved);
      var restored := Restore(Lengths(texts), saved).value;
      if Content(mid) == Content(live) {
        SavedOffsetsCut(texts, restored);
        SavedOffsetsCut(TextNodes(live), b);
      }
    } else {
      RestoreUndefined(Lengths(texts), saved);
    }
  }

  /**
    Some text is needed: a caret in an empty paragraph of an otherwise empty
    editor is saved as `{0, 0}`, and if the command leaves no text node the
    saved offsets cannot be restored.
   */
  lemma EmptyEditorSelectionLost()
    ensures var live := Elem("DIV", [], [Text("")]);
      var b := Bounds(Anchor(0, 0), Anchor(0, 0));
      var mid := Elem("DIV", [], []);
      && ValidBounds(TextNodes(live), b)
      && SaveSelection(TextNodes(live), b) == Saved(0, 0)
      && Restore(Lengths(TextNodes(CleanUp(Some(mid)).value)), Saved(0, 0)).None?
  {
    var live := Elem("DIV", [], [Text("")]);
    var mid := Elem("DIV", [], []);
    var b := Bounds(Anchor(0, 0), Anchor(0, 0));
    assert TextNodes(live) == [""];
    var saved := SaveSelection(TextNodes(live), b);
    ContentIsTextNodes(live);
    assert TextNodes(CleanUp(Some(mid)).value) == [];
    RestoreUndefined([], Saved(0, 0));
  }
}

=== FILE: keys.dfy ===
/**
  The Enter-key decision of `enterHandler` in js/editor.js and the small
  string rules it uses: `isList`, `isHeading` and the two list-shortcut
  prefix strips.
 */
module Keys {
  import opened Strings
  import opened Tree
  import opened Selection
  import opened Ancestors

  /**
    `isList`: whatever node it is handed, it looks up an `LI` among the
    names recorded from the selection's focus node.
   */
  function IsList(focusPath: seq<string>): (r: bool)
    requires |focusPath| > 0
    ensures r <==> exists d :: 0 <= d < |focusPath| - 1 && focusPath[d] == "LI"
  {
    var r := "LI" in ParentNodes(focusPath);
    assert r ==> focusPath[ParentNodes(focusPath)["LI"]] == "LI";
    r
  }

  /** `isHeading`: `h1` to `h6` in either case. */
  function IsHeading(el: string): (r: bool)
    ensures r <==> |el| == 2 && (el[0] == 'h' || el[0] == 'H') && '1' <= el[1] <= '6'
  {
    var lower := ToLower(el);
    var r := lower in ["h1", "h2", "h3", "h4", "h5", "h6"];
    assert |el| == 2 ==> lower == [lower[0], lower[1]];
    r
  }

  /** `replace(/^1\.\s/, '')`: drops a leading `1.` followed by one whitespace character, if present. */
  function StripOrderedPrefix(t: string): (r: string)
    ensures |r| <= |t|
    ensures |t| - |r| == 0 || |t| - |r| == 3
    ensures r == t[|t| - |r|..]
    ensures |r| < |t| <==> |t| >= 3 && t[0] == '1' && t[1] == '.' && IsWs(t[2])
  {
    if |t| >= 3 && t[0] == '1' && t[1] == '.' && IsWs(t[2]) then t[3..] else t
  }

  /**
    `replace(/^-?\s/, '')`: drops a leading `-` with the whitespace after it,
    or else one leading whitespace character, if present.
   */
  function StripBulletPrefix(t: string): (r: string)
    ensures |r| <= |t| && |t| - |r| <= 2
    ensures r == t[|t| - |r|..]
    ensures |t| - |r| == 2 <==> |t| >= 2 && t[0] == '-' && IsWs(t[1])
    ensures |t| - |r| == 1 <==> |t| >= 1 && IsWs(t[0])
  {
    if |t| >= 2 && t[0] == '-' && IsWs(t[1]) then t[2..]
    else if |t| >= 1 && IsWs(t[0]) then t[1..]
    else t
  }

  /** Putting a bullet prefix back in front of text and stripping it again gives the text. */
  lemma StripBulletPrefixInverse(ws: char, t: string)
    requires IsWs(ws)
    ensures StripBulletPrefix(['-', ws] + t) == t
  {
    var u := ['-', ws] + t;
    assert |u| >= 2 && u[0] == '-' && u[1] == ws;
    assert u[2..] == t;
  }

  /** The same for the ordered-list prefix `1.` and one whitespace character. */
  lemma StripOrderedPrefixInverse(ws: char, t: string)
    requires IsWs(ws)
    ensures StripOrderedPrefix(['1', '.', ws] + t) == t
  {
    var u := ['1', '.', ws] + t;
    assert |u| >= 3 && u[0] == '1' && u[1] == '.' && u[2] == ws;
    assert u[3..] == t;
  }

  /** What pressing Enter does. */
  datatype EnterAction =
    | NotIntercepted
      /** A new paragraph after the heading or quote holding the caret. */
    | ParagraphAfter
      /** A horizontal rule inserted into the live element before the caret's node. */
    | InsertRule
      /**
        The default is prevented but `insertBefore` throws `NotFoundError`,
        because the caret's node is not a child of the live element: Enter
        does nothing at all.
       */
    | Swallowed
      /** The node's text becomes `text` and an ordered list is made. */
    | OrderedShortcut(text: string)
      /** The node's text becomes `text` and a bulleted list is made. */
    | BulletShortcut(text: string)
    | CleanUpThenParagraph

  /** The node name of a block whose Enter opens a new paragraph after it. */
  predicate IsBlockParent(name: string)
    ensures IsBlockParent(name) <==> name == "BLOCKQUOTE" || (|name| == 2 && name[0] in "hH" && name[1] in "123456")
  {
    IsHeading(name) || name == "BLOCKQUOTE"
  }

  /**
    The choice `enterHandler` makes from the caret node's text once the
    caret sits at an edge of that node outside any list or block parent.
    `startInLive` tells whether that node is a direct child of the live
    element, which `insertBefore` demands of its reference node.
   */
  function TextAction(text: string, startInLive: bool): (r: EnterAction)
    ensures r == InsertRule <==> IsBlank(text) && startInLive
    ensures r == Swallowed <==> IsBlank(text) && !startInLive
    ensures r.OrderedShortcut? <==> !IsBlank(text) && |text| > 0 && text[0] == '1'
    ensures r.BulletShortcut? <==> !IsBlank(text) && |text| > 0 && text[0] == '-'
    ensures r == CleanUpThenParagraph <==> !IsBlank(text) && |text| > 0 && text[0] != '1' && text[0] != '-'
    ensures r.OrderedShortcut? ==> r.text == StripOrderedPrefix(text)
    ensures r.BulletShortcut? ==> r.text == StripBulletPrefix(text)
    ensures r != NotIntercepted && r != ParagraphAfter
  {
    TrimEmptyIffBlank(text);
    if Trim(text) == "" then (if startInLive then InsertRule else Swallowed)
    else
      assert |text| > 0;
      if text[0] == '1' then OrderedShortcut(StripOrderedPrefix(text))
      else if text[0] == '-' then BulletShortcut(StripBulletPrefix(text))
      else CleanUpThenParagraph
  }

  /**
    `enterHandler`. `focusPath` is the walk from the selection's focus node,
    `parentName` the node name of the start container's parent, `current`
    the start container, `startInLive` whether the start container is a
    direct child of the live element, and `endContainer`/`endOffset` the
    range end that `atEndOfNode` inspects.
   */
  function Enter(focusPath: seq<string>, parentName: string, current: Node, startInLive: bool,
                 startOffset: nat, endContainer: Node, endOffset: nat): (r: EnterAction)
    requires |focusPath| > 0 && endOffset <= Extent(endContainer)
    ensures var edge := startOffset == 0 || AtEndOfNode(endContainer, endOffset);
      r == NotIntercepted <==> IsList(focusPath) || (!IsBlockParent(parentName) && !edge)
    ensures r == ParagraphAfter <==> !IsList(focusPath) && IsBlockParent(parentName)
    ensures var edge := startOffset == 0 || AtEndOfNode(endContainer, endOffset);
      !IsList(focusPath) && !IsBlockParent(parentName) && edge ==> r == TextAction(Content(current), startInLive)
  {
    if IsList(focusPath) then NotIntercepted
    else if IsBlockParent(parentName) then ParagraphAfter
    else if (startOffset == 0 || AtEndOfNode(endContainer, endOffset)) && !IsList(focusPath) then
      TextAction(Content(current), startInLive)
    else NotIntercepted
  }

  lemma PlainParagraphPath()
    ensures !IsList(["#text", "P", "DIV", "#document"]) && !IsBlockParent("P")
  {
    assert "LI" !in ParentNodes(["#text", "P", "DIV", "#document"]) by {
      assert Walked(["#text", "P", "DIV", "#document"]) == ["#text", "P", "DIV"];
    }
  }

  /** Text such as `10 items` also starts an ordered list, with its text left as it is. */
  lemma TenItemsMakesList()
    ensures Enter(["#text", "P", "DIV", "#document"], "P", Text("10 items"), false, 0, Text("10 items"), 0)
      == OrderedShortcut("10 items")
  {
    PlainParagraphPath();
    assert !IsBlank("10 items") by {
      assert !IsWs("10 items"[0]);
    }
    assert StripOrderedPrefix("10 items") == "10 items" by {
      assert "10 items"[1] == '0';
    }
  }

  /**
    Whitespace-only text, a lone no-break space included, lying directly in
    the live element turns Enter into a rule.
   */
  lemma NoBreakSpaceMakesRule()
    ensures Enter(["#text", "DIV", "#document"], "DIV", Text("\U{00A0}"), true, 0, Text("\U{00A0}"), 0)
      == InsertRule
  {
    assert "LI" !in ParentNodes(["#text", "DIV", "#document"]) by {
      assert Walked(["#text", "DIV", "#document"]) == ["#text", "DIV"];
    }
    assert IsBlank("\U{00A0}") by {
      assert IsWs("\U{00A0}"[0]);
    }
  }

  /**
    The same text in a paragraph of the live element: the rule would go
    before a node that is not the live element's child, so the insertion
    throws and Enter does nothing.
   */
  lemma NoBreakSpaceInParagraphSwallowed()
    ensures Enter(["#text", "P", "DIV", "#document"], "P", Text("\U{00A0}"), false, 0, Text("\U{00A0}"), 0)
      == Swallowed
  {
    PlainParagraphPath();
    assert IsBlank("\U{00A0}") by {
      assert IsWs("\U{00A0}"[0]);
    }
  }

  /** A press in the middle of a plain paragraph's text is left to the browser. */
  lemma MiddlePressNotIntercepted()
    ensures Enter(["#text", "P", "DIV", "#document"], "P", Text("ab"), false, 1, Text("ab"), 1)
      == NotIntercepted
  {
    PlainParagraphPath();
  }
}

=== FILE: normalizer.dfy ===
/**
  `cleanUp` of js/editor.js (lines 205-254): every element strictly inside
  the live element is normalised (its text runs merged), stripped of the
  `class` and `style` attributes and classified against its original
  parent; then the flagged elements are unwrapped, and finally orphaned
  list items are turned into paragraphs.

  The source does this in three passes over a live DOM. The model keeps
  the three passes (`MarkSeq`, `UnwrapAll`, `SwapAll`) and proves them equal
  to a one-pass reference (`CleanSeq`), about which the invariants are stated.
 */
module Normalizer {
  import opened Wrappers
  import opened Strings
  import opened Tree
  import opened Repair

  const DisallowedElements: seq<string> := ["BR", "SPAN", "DIV"]
  const DisallowedAttributes: seq<string> := ["class", "style"]

  predicate IsList(name: string) {
    name == "UL" || name == "OL"
  }

  predicate IsListItem(n: Node) {
    n.Elem? && n.name == "LI"
  }

  /** The attribute list with every `class` and `style` entry removed. */
  function StripAttributes(attrs: seq<Attr>): (r: seq<Attr>)
    ensures forall a :: a in r ==> a.0 !in DisallowedAttributes
    ensures forall a :: a in r <==> a in attrs && a.0 !in DisallowedAttributes
  {
    if attrs == [] then []
    else (if attrs[0].0 in DisallowedAttributes then [] else [attrs[0]]) + StripAttributes(attrs[1..])
  }

  lemma {:induction false} StripNothing(attrs: seq<Attr>)
    requires forall a :: a in attrs ==> a.0 !in DisallowedAttributes
    ensures StripAttributes(attrs) == attrs
  {
    if attrs != [] {
      assert attrs[0] in attrs;
      StripNothing(attrs[1..]);
    }
  }

  /*** Text merging (`Node.normalize` on one sibling list) ***/

  /** What `normalize` leaves behind: no empty text node and no two text nodes side by side. */
  predicate Merged(ks: seq<Node>) {
    ks != [] ==>
      && (ks[0].Text? ==> ks[0].text != [] && (|ks| > 1 ==> ks[1].Elem?))
      && Merged(ks[1..])
  }

  /** The element children of a sibling list, in order. */
  function Elements(ks: seq<Node>): seq<Node> {
    if ks == [] then []
    else (if ks[0].Elem? then [ks[0]] else []) + Elements(ks[1..])
  }

  /**
    The text between consecutive elements of a sibling list, including the
    run before the first element and the one after the last: one more run
    than there are elements.
   */
  function Runs(ks: seq<Node>): (r: seq<string>)
    ensures |r| == |Elements(ks)| + 1
  {
    if ks == [] then [[]]
    else
      var rs := Runs(ks[1..]);
      if ks[0].Elem? then [[]] + rs else [ks[0].text + rs[0]] + rs[1..]
  }

  lemma {:induction false} ElementsMembers(ks: seq<Node>)
    ensures forall o :: o in Elements(ks) <==> o in ks && o.Elem?
  {
    if ks != [] {
      ElementsMembers(ks[1..]);
      assert forall o :: o in ks <==> o == ks[0] || o in ks[1..];
    }
  }

  /**
    Adjacent text nodes are joined and empty ones dropped; the elements,
    their order and the text are unchanged.
   */
  function MergeTexts(ks: seq<Node>): (r: seq<Node>)
    ensures ContentSeq(r) == ContentSeq(ks)
    ensures Merged(r)
    ensures Elements(r) == Elements(ks)
    ensures Runs(r) == Runs(ks)
    ensures SizeSeq(r) <= SizeSeq(ks)
  {
    if ks == [] then []
    else
      var rest := MergeTexts(ks[1..]);
      var r := MergeStep(ks[0], rest);
      MergeStepSound(ks[0], rest);
      assert ks == [ks[0]] + ks[1..];
      r
  }

  /** Puts one node in front of an already merged list, joining it with a leading text node. */
  function MergeStep(k: Node, rest: seq<Node>): seq<Node> {
    if k.Elem? then [k] + rest
    else if rest != [] && rest[0].Text? then [Text(k.text + rest[0].text)] + rest[1..]
    else if k.text == [] then rest
    else [k] + rest
  }

  /** The three measures of a list with a node put in front. */
  lemma Cons(k: Node, rest: seq<Node>)
    ensures ContentSeq([k] + rest) == Content(k) + ContentSeq(rest)
    ensures Elements([k] + rest) == (if k.Elem? then [k] else []) + Elements(rest)
    ensures SizeSeq([k] + rest) == Size(k) + SizeSeq(rest)
    ensures Runs([k] + rest) == if k.Elem? then [[]] + Runs(rest) else [k.text + Runs(rest)[0]] + Runs(rest)[1..]
  {
    assert ([k] + rest)[0] == k;
    assert ([k] + rest)[1..] == rest;
  }

  /** Replacing a merged list's leading text node by a non-empty one keeps it merged. */
  lemma JoinMerged(t: string, rest: seq<Node>)
    requires Merged(rest) && rest != [] && rest[0].Text? && t != []
    ensures Merged([Text(t)] + rest[1..])
  {
    assert ([Text(t)] + rest[1..])[1..] == rest[1..];
  }

  lemma MergeJoinSound(k: Node, rest: seq<Node>)
    requires Merged(rest) && k.Text? && rest != [] && rest[0].Text?
    ensures ContentSeq(MergeStep(k, rest)) == Content(k) + ContentSeq(rest)
    ensures Merged(MergeStep(k, rest))
    ensures Elements(MergeStep(k, rest)) == Elements([k] + rest)
    ensures Runs(MergeStep(k, rest)) == Runs([k] + rest)
    ensures SizeSeq(MergeStep(k, rest)) <= Size(k) + SizeSeq(rest)
  {
    var joined := Text(k.text + rest[0].text);
    var tail := rest[1..];
    assert MergeStep(k, rest) == [joined] + tail;
    assert rest == [rest[0]] + tail;
    Cons(joined, tail);
    Cons(rest[0], tail);
    Cons(k, rest);
    assert Content(joined) == Content(k) + Content(rest[0]);
    ConcatAssoc(Content(k), Content(rest[0]), ContentSeq(tail));
    ConcatAssoc(k.text, rest[0].text, Runs(tail)[0]);
    JoinMerged(joined.text, rest);
  }

  lemma MergeStepSound(k: Node, rest: seq<Node>)
    requires Merged(rest)
    ensures ContentSeq(MergeStep(k, rest)) == Content(k) + ContentSeq(rest)
    ensures Merged(MergeStep(k, rest))
    ensures Elements(MergeStep(k, rest)) == Elements([k] + rest)
    ensures Runs(MergeStep(k, rest)) == Runs([k] + rest)
    ensures SizeSeq(MergeStep(k, rest)) <= Size(k) + SizeSeq(rest)
  {
    Cons(k, rest);
    if k.Text? && rest != [] && rest[0].Text? {
      MergeJoinSound(k, rest);
    } else if k.Text? && k.text == [] {
      var rs := Runs(rest);
      assert [] + rs[0] == rs[0];
      assert [rs[0]] + rs[1..] == rs;
    }
  }

  /**
    A normalised sibling list is determined by its elements and the text
    between them, so the three ensures of `MergeTexts` fix its result.
   */
  lemma {:induction false} MergedUnique(a: seq<Node>, b: seq<Node>)
    requires Merged(a) && Merged(b)
    requires Elements(a) == Elements(b) && Runs(a) == Runs(b)
    ensures a == b
    decreases |a|
  {
    if a == [] {
      NonEmptyShows(b);
    } else {
      if a[0].Elem? {
        HeadElemAgrees(a, b);
      } else {
        HeadTextAgrees(a, b);
      }
      MergedUnique(a[1..], b[1..]);
      assert a == [a[0]] + a[1..] && b == [b[0]] + b[1..];
    }
  }

  /** A non-empty normalised list has an element or some text before its first element. */
  lemma NonEmptyShows(b: seq<Node>)
    requires Merged(b)
    ensures b != [] ==> Elements(b) != [] || Runs(b)[0] != []
  {
    if b != [] {
      if b[0].Elem? {
        assert Elements(b)[0] == b[0];
      } else {
        assert Runs(b)[0] == b[0].text + Runs(b[1..])[0];
      }
    }
  }

  /** In a normalised list, the first run is empty exactly when the list is empty or starts with an element. */
  lemma RunsHead(b: seq<Node>)
    requires Merged(b)
    ensures Runs(b)[0] == [] <==> b == [] || b[0].Elem?
  {
    if b != [] && b[0].Text? {
      assert Runs(b)[0] == b[0].text + Runs(b[1..])[0];
    }
  }

  lemma HeadElemAgrees(a: seq<Node>, b: seq<Node>)
    requires Merged(a) && Merged(b) && a != [] && a[0].Elem?
    requires Elements(a) == Elements(b) && Runs(a) == Runs(b)
    ensures b != [] && a[0] == b[0]
    ensures Merged(a[1..]) && Merged(b[1..])
    ensures Elements(a[1..]) == Elements(b[1..]) && Runs(a[1..]) == Runs(b[1..])
  {
    assert Elements(a)[0] == a[0];
    assert b != [];
    RunsHead(a);
    RunsHead(b);
    assert b[0].Elem?;
    assert Elements(b)[0] == b[0];
    assert Elements(a[1..]) == Elements(a)[1..] && Elements(b[1..]) == Elements(b)[1..];
    assert Runs(a[1..]) == Runs(a)[1..] && Runs(b[1..]) == Runs(b)[1..];
  }

  lemma HeadTextAgrees(a: seq<Node>, b: seq<Node>)
    requires Merged(a) && Merged(b) && a != [] && a[0].Text?
    requires Elements(a) == Elements(b) && Runs(a) == Runs(b)
    ensures b != [] && a[0] == b[0]
    ensures Merged(a[1..]) && Merged(b[1..])
    ensures Elements(a[1..]) == Elements(b[1..]) && Runs(a[1..]) == Runs(b[1..])
  {
    var a', b' := a[1..], b[1..];
    RunsHead(a);
    RunsHead(b);
    assert b != [] && b[0].Text?;
    assert Runs(a) == [a[0].text + Runs(a')[0]] + Runs(a')[1..];
    assert Runs(b) == [b[0].text + Runs(b')[0]] + Runs(b')[1..];
    LeadingRunEmpty(a');
    LeadingRunEmpty(b');
    assert a[0].text + [] == a[0].text && b[0].text + [] == b[0].text;
    assert a[0].text == Runs(a)[0] == Runs(b)[0] == b[0].text;
    assert Runs(a')[1..] == Runs(a)[1..] == Runs(b)[1..] == Runs(b')[1..];
    assert Runs(a') == [Runs(a')[0]] + Runs(a')[1..] && Runs(b') == [Runs(b')[0]] + Runs(b')[1..];
    assert Elements(a') == Elements(a) && Elements(b') == Elements(b);
  }

  /** After a text node of a normalised list, no text follows before the next element. */
  lemma LeadingRunEmpty(ks: seq<Node>)
    requires ks == [] || ks[0].Elem?
    ensures Runs(ks)[0] == []
  {
  }

  lemma {:induction false} MergeNothing(ks: seq<Node>)
    requires Merged(ks)
    ensures MergeTexts(ks) == ks
  {
    if ks != [] {
      MergeNothing(ks[1..]);
    }
  }

  /*** Classification ***/

  datatype Mark = Keep | Unwrap | ToParagraph

  /**
    The verdict the first pass gives an element, judged against its original
    parent: blank non-`HR` elements and `BR`, `SPAN`, `DIV` are unwrapped, a
    non-blank `LI` outside `UL`/`OL` becomes a paragraph.
   */
  function Classify(parentName: string, n: Node): (m: Mark)
    requires n.Elem?
    ensures m == Unwrap <==> (IsBlank(Content(n)) && n.name != "HR") || n.name in DisallowedElements
    ensures m == ToParagraph <==> !IsBlank(Content(n)) && IsListItem(n) && !IsList(parentName)
  {
    if IsBlank(Content(n)) && n.name != "HR" then Unwrap
    else if n.name in DisallowedElements then Unwrap
    else if n.name == "LI" && !IsList(parentName) then ToParagraph
    else Keep
  }

  /*** The three passes ***/

  /** A tree whose elements carry the first pass's verdict. */
  datatype Marked =
    | MText(text: string)
    | MElem(mark: Mark, name: string, attrs: seq<Attr>, kids: seq<Marked>)

  /** First pass: normalise, strip attributes and classify every element, in document order. */
  function MarkNode(parentName: string, n: Node): Marked
    decreases Size(n), 1
  {
    match n
    case Text(s) => MText(s)
    case Elem(name, attrs, ks) =>
      MElem(Classify(parentName, n), name, StripAttributes(attrs), MarkSeq(name, MergeTexts(ks)))
  }

  function MarkSeq(parentName: string, ks: seq<Node>): seq<Marked>
    decreases SizeSeq(ks), 2
  {
    if ks == [] then [] else [MarkNode(parentName, ks[0])] + MarkSeq(parentName, ks[1..])
  }

  /** Second pass: every element flagged for removal is replaced by its children. */
  function UnwrapOne(m: Marked): seq<Marked> {
    match m
    case MText(_) => [m]
    case MElem(mark, name, attrs, kids) =>
      if mark == Unwrap then UnwrapAll(kids) else [MElem(mark, name, attrs, UnwrapAll(kids))]
  }

  function UnwrapAll(ms: seq<Marked>): seq<Marked> {
    if ms == [] then [] else UnwrapOne(ms[0]) + UnwrapAll(ms[1..])
  }

  /** Third pass: every element flagged for swapping becomes a bare `P` with the same children. */
  function SwapNode(m: Marked): Node {
    match m
    case MText(s) => Text(s)
    case MElem(mark, name, attrs, kids) =>
      if mark == ToParagraph then Elem("P", [], SwapAll(kids)) else Elem(name, attrs, SwapAll(kids))
  }

  function SwapAll(ms: seq<Marked>): seq<Node> {
    if ms == [] then [] else [SwapNode(ms[0])] + SwapAll(ms[1..])
  }

  /*** What each pass keeps and establishes ***/

  /** The text of a marked tree: what `textContent` reads between the passes. */
  function MContent(m: Marked): string {
    match m
    case MText(s) => s
    case MElem(_, _, _, kids) => MContentSeq(kids)
  }

  function MContentSeq(ms: seq<Marked>): string {
    if ms == [] then [] else MContent(ms[0]) + MContentSeq(ms[1..])
  }

  lemma {:induction false} MContentSeqAppend(a: seq<Marked>, b: seq<Marked>)
    ensures MContentSeq(a + b) == MContentSeq(a) + MContentSeq(b)
    decreases |a|
  {
    if a != [] {
      assert (a + b)[1..] == a[1..] + b;
      MContentSeqAppend(a[1..], b);
    } else {
      assert a + b == b;
    }
  }

  /** A marked tree with its verdicts dropped. */
  function Erase(m: Marked): Node {
    match m
    case MText(s) => Text(s)
    case MElem(_, name, attrs, kids) => Elem(name, attrs, EraseSeq(kids))
  }

  function EraseSeq(ms: seq<Marked>): (r: seq<Node>)
    ensures |r| == |ms|
  {
    if ms == [] then [] else [Erase(ms[0])] + EraseSeq(ms[1..])
  }

  lemma {:induction false} EraseContent(m: Marked)
    ensures Content(Erase(m)) == MContent(m)
    decreases m, 1
  {
    match m
    case MText(_) =>
    case MElem(_, _, _, kids) =>
      EraseSeqContent(kids);
  }

  lemma {:induction false} EraseSeqContent(ms: seq<Marked>)
    ensures ContentSeq(EraseSeq(ms)) == MContentSeq(ms)
    decreases ms, 0
  {
    if ms != [] {
      EraseContent(ms[0]);
      EraseSeqContent(ms[1..]);
      var r := EraseSeq(ms);
      assert r[0] == Erase(ms[0]) && r[1..] == EraseSeq(ms[1..]);
    }
  }

  /**
    `e` is `n` as the first pass leaves it: every sibling list normalised
    (no empty or adjacent text nodes, the same text between the same
    elements), `class` and `style` stripped, every element kept in order.
   */
  predicate Tidied(n: Node, e: Node)
    decreases n
  {
    && (n.Text? ==> e == n)
    && (n.Elem? ==>
          && e.Elem? && e.name == n.name && e.attrs == StripAttributes(n.attrs)
          && Merged(e.kids) && Runs(e.kids) == Runs(n.kids)
          && |Elements(e.kids)| == |Elements(n.kids)|
          && (ElementsMembers(n.kids);
              forall j :: 0 <= j < |Elements(n.kids)| ==>
                assert Elements(n.kids)[j] in n.kids;
                Tidied(Elements(n.kids)[j], Elements(e.kids)[j])))
  }

  /** Every element of a marked tree carries the verdict `Classify` gives it against its parent in the same tree. */
  predicate Classified(parentName: string, m: Marked)
    decreases m
  {
    m.MElem? ==>
      && m.mark == Classify(parentName, Erase(m))
      && forall i :: 0 <= i < |m.kids| ==> Classified(m.name, m.kids[i])
  }

  /** Node by node, text stays the same text and an element stays an element. */
  predicate SameKinds(xs: seq<Node>, ys: seq<Node>) {
    && |xs| == |ys|
    && forall i :: 0 <= i < |xs| ==> (xs[i].Text? ==> ys[i] == xs[i]) && (xs[i].Elem? ==> ys[i].Elem?)
  }

  lemma SameKindsTail(xs: seq<Node>, ys: seq<Node>)
    requires SameKinds(xs, ys) && xs != []
    ensures SameKinds(xs[1..], ys[1..])
    ensures (xs[0].Text? ==> ys[0] == xs[0]) && (xs[0].Elem? ==> ys[0].Elem?)
  {
    assert forall i :: 0 <= i < |xs| - 1 ==> xs[1..][i] == xs[i + 1] && ys[1..][i] == ys[i + 1];
  }

  lemma {:induction false} SameKindsRuns(xs: seq<Node>, ys: seq<Node>)
    requires SameKinds(xs, ys)
    ensures Runs(ys) == Runs(xs) && |Elements(ys)| == |Elements(xs)|
    ensures Merged(xs) ==> Merged(ys)
  {
    if xs != [] {
      SameKindsTail(xs, ys);
      SameKindsRuns(xs[1..], ys[1..]);
    }
  }

  /** Where the `j`-th element of a sibling list sits. */
  function ElementAt(xs: seq<Node>, j: nat): (i: nat)
    requires j < |Elements(xs)|
    ensures i < |xs|
  {
    if xs[0].Elem? then
      if j == 0 then 0
      else
        assert Elements(xs) == [xs[0]] + Elements(xs[1..]);
        1 + ElementAt(xs[1..], j - 1)
    else
      assert Elements(xs) == Elements(xs[1..]);
      1 + ElementAt(xs[1..], j)
  }

  /** Lists of the same kinds, node by node, have their elements at the same places. */
  lemma {:induction false} SameKindsElementAt(xs: seq<Node>, ys: seq<Node>, j: nat)
    requires SameKinds(xs, ys) && j < |Elements(xs)| && |Elements(ys)| == |Elements(xs)|
    ensures Elements(ys)[j] == ys[ElementAt(xs, j)]
  {
    var xs', ys' := xs[1..], ys[1..];
    SameKindsTail(xs, ys);
    SameKindsRuns(xs', ys');
    if xs[0].Elem? {
      assert Elements(ys) == [ys[0]] + Elements(ys');
      if j > 0 {
        assert Elements(xs) == [xs[0]] + Elements(xs');
        SameKindsElementAt(xs', ys', j - 1);
      }
    } else {
      assert Elements(xs) == Elements(xs') && Elements(ys) == Elements(ys');
      SameKindsElementAt(xs', ys', j);
    }
  }

  /** `Tidied` keeps a text node and maps an element to an element. */
  lemma TidiedKinds(xs: seq<Node>, ys: seq<Node>)
    requires |xs| == |ys| && forall i :: 0 <= i < |xs| ==> Tidied(xs[i], ys[i])
    ensures SameKinds(xs, ys)
  {
  }

  /** Lists related node by node by `Tidied` have the same runs and corresponding elements. */
  lemma TidiedPointwise(xs: seq<Node>, ys: seq<Node>)
    requires |xs| == |ys| && forall i :: 0 <= i < |xs| ==> Tidied(xs[i], ys[i])
    ensures Runs(ys) == Runs(xs)
    ensures |Elements(ys)| == |Elements(xs)|
    ensures forall j :: 0 <= j < |Elements(xs)| ==> Tidied(Elements(xs)[j], Elements(ys)[j])
    ensures Merged(xs) ==> Merged(ys)
  {
    TidiedKinds(xs, ys);
    SameKindsRuns(xs, ys);
    forall j | 0 <= j < |Elements(xs)|
      ensures Tidied(Elements(xs)[j], Elements(ys)[j])
    {
      SameKindsElementAt(xs, xs, j);
      SameKindsElementAt(xs, ys, j);
      assert Tidied(xs[ElementAt(xs, j)], ys[ElementAt(xs, j)]);
    }
  }

  /** Every element of a marked tree has lost its `class` and `style` attributes. */
  predicate AttributesStripped(m: Marked) {
    m.MElem? ==>
      && (forall a :: a in m.attrs ==> a.0 !in DisallowedAttributes)
      && forall k :: k in m.kids ==> AttributesStripped(k)
  }

  /** No element of a marked tree is still flagged for removal. */
  predicate NoUnwrap(m: Marked) {
    m.MElem? ==> m.mark != Unwrap && forall k :: k in m.kids ==> NoUnwrap(k)
  }

  /**
    The first pass keeps the text and strips the attributes of every element
    it visits; with its verdicts erased, the tree is the input normalised and
    stripped, and every verdict is the one `Classify` gives against the
    element's original parent.
   */
  lemma {:induction false} MarkNodeSound(parentName: string, n: Node)
    ensures MContent(MarkNode(parentName, n)) == Content(n)
    ensures AttributesStripped(MarkNode(parentName, n))
    ensures Tidied(n, Erase(MarkNode(parentName, n)))
    ensures Classified(parentName, MarkNode(parentName, n))
    decreases Size(n), 1
  {
    match n
    case Text(_) =>
    case Elem(name, attrs, ks) =>
      var xs := MergeTexts(ks);
      var ms := MarkSeq(name, xs);
      MarkSeqSound(name, xs);
      var m := MarkNode(parentName, n);
      var e := Erase(m);
      assert e.kids == EraseSeq(ms);
      TidiedPointwise(xs, EraseSeq(ms));
      EraseContent(m);
      assert Classify(parentName, e) == Classify(parentName, n);
  }

  lemma {:induction false} MarkSeqSound(parentName: string, ks: seq<Node>)
    ensures |MarkSeq(parentName, ks)| == |ks|
    ensures MContentSeq(MarkSeq(parentName, ks)) == ContentSeq(ks)
    ensures forall m :: m in MarkSeq(parentName, ks) ==> AttributesStripped(m)
    ensures forall i :: 0 <= i < |ks| ==>
      Tidied(ks[i], EraseSeq(MarkSeq(parentName, ks))[i]) && Classified(parentName, MarkSeq(parentName, ks)[i])
    decreases SizeSeq(ks), 2
  {
    if ks != [] {
      MarkNodeSound(parentName, ks[0]);
      MarkSeqSound(parentName, ks[1..]);
      var r := MarkSeq(parentName, ks);
      assert r[1..] == MarkSeq(parentName, ks[1..]);
      assert forall m :: m in r ==> m == r[0] || m in r[1..];
      var es := EraseSeq(r);
      assert es[0] == Erase(r[0]) && es[1..] == EraseSeq(r[1..]);
      forall i | 0 <= i < |ks|
        ensures Tidied(ks[i], es[i]) && Classified(parentName, r[i])
      {
        if i > 0 {
          assert ks[i] == ks[1..][i - 1] && es[i] == es[1..][i - 1] && r[i] == r[1..][i - 1];
        }
      }
    }
  }

  /** One piece of a marked tree's markup: a text node, or an element's start or end tag. */
  datatype Token =
    | TextToken(text: string)
    | StartTag(mark: Mark, name: string, attrs: seq<Attr>)
    | EndTag(mark: Mark, name: string)

  /** The markup of a marked tree, in document order. */
  function Tokens(m: Marked): (r: seq<Token>)
    ensures |r| > 0 && !r[0].EndTag?
  {
    match m
    case MText(s) => [TextToken(s)]
    case MElem(mark, name, attrs, kids) => [StartTag(mark, name, attrs)] + TokensSeq(kids) + [EndTag(mark, name)]
  }

  function TokensSeq(ms: seq<Marked>): seq<Token> {
    if ms == [] then [] else Tokens(ms[0]) + TokensSeq(ms[1..])
  }

  /** The markup with the start and end tags of every element flagged for removal deleted. */
  function DropFlaggedTags(ts: seq<Token>): seq<Token> {
    if ts == [] then []
    else if !ts[0].TextToken? && ts[0].mark == Unwrap then DropFlaggedTags(ts[1..])
    else [ts[0]] + DropFlaggedTags(ts[1..])
  }

  lemma {:induction false} DropAppend(a: seq<Token>, b: seq<Token>)
    ensures DropFlaggedTags(a + b) == DropFlaggedTags(a) + DropFlaggedTags(b)
    decreases |a|
  {
    if a != [] {
      assert (a + b)[0] == a[0] && (a + b)[1..] == a[1..] + b;
      DropAppend(a[1..], b);
    } else {
      assert a + b == b;
    }
  }

  lemma {:induction false} TokensSeqAppend(a: seq<Marked>, b: seq<Marked>)
    ensures TokensSeq(a + b) == TokensSeq(a) + TokensSeq(b)
    decreases |a|
  {
    if a != [] {
      assert (a + b)[0] == a[0] && (a + b)[1..] == a[1..] + b;
      TokensSeqAppend(a[1..], b);
    } else {
      assert a + b == b;
    }
  }

  /** A single tree's markup, then the markup of a forest. */
  lemma TokensSingle(m: Marked)
    ensures TokensSeq([m]) == Tokens(m)
  {
    assert [m][1..] == [];
  }

  /**
    The second pass keeps the text, leaves no element flagged for removal,
    and its markup is the input's with exactly the flagged elements' start
    and end tags deleted: every other element keeps its verdict, name,
    attributes, place and descendants, and the text nodes stay as they were.
   */
  lemma {:induction false} UnwrapOneSound(m: Marked)
    ensures MContentSeq(UnwrapOne(m)) == MContent(m)
    ensures forall o :: o in UnwrapOne(m) ==> NoUnwrap(o)
    ensures TokensSeq(UnwrapOne(m)) == DropFlaggedTags(Tokens(m))
    decreases m, 1
  {
    match m
    case MText(s) =>
      assert [m][1..] == [];
      TokensSingle(m);
      assert [TextToken(s)][1..] == [];
    case MElem(mark, name, attrs, kids) =>
      UnwrapAllSound(kids);
      var open, close := [StartTag(mark, name, attrs)], [EndTag(mark, name)];
      DropAppend(open + TokensSeq(kids), close);
      DropAppend(open, TokensSeq(kids));
      assert open[1..] == [] && close[1..] == [];
      if mark != Unwrap {
        var o := MElem(mark, name, attrs, UnwrapAll(kids));
        assert [o][1..] == [];
        TokensSingle(o);
      }
  }

  lemma {:induction false} UnwrapAllSound(ms: seq<Marked>)
    ensures MContentSeq(UnwrapAll(ms)) == MContentSeq(ms)
    ensures forall o :: o in UnwrapAll(ms) ==> NoUnwrap(o)
    ensures TokensSeq(UnwrapAll(ms)) == DropFlaggedTags(TokensSeq(ms))
    decreases ms, 0
  {
    if ms != [] {
      UnwrapOneSound(ms[0]);
      UnwrapAllSound(ms[1..]);
      MContentSeqAppend(UnwrapOne(ms[0]), UnwrapAll(ms[1..]));
      TokensSeqAppend(UnwrapOne(ms[0]), UnwrapAll(ms[1..]));
      DropAppend(Tokens(ms[0]), TokensSeq(ms[1..]));
    }
  }

  /** A tree's markup followed by anything determines the tree and what follows it. */
  lemma {:induction false} TokensPrefixFree(m: Marked, n: Marked, x: seq<Token>, y: seq<Token>)
    requires Tokens(m) + x == Tokens(n) + y
    ensures m == n && x == y
    decreases m, 1
  {
    assert Tokens(n)[0] == (Tokens(n) + y)[0] == (Tokens(m) + x)[0] == Tokens(m)[0];
    match m
    case MText(s) =>
      assert Tokens(n) == [TextToken(s)];
      assert x == (Tokens(m) + x)[1..] == (Tokens(n) + y)[1..] == y;
    case MElem(mark, name, attrs, kids) =>
      assert n.MElem? && n.mark == mark && n.name == name && n.attrs == attrs;
      var open, close := [StartTag(mark, name, attrs)], [EndTag(mark, name)];
      var xs, ys := TokensSeq(kids) + (close + x), TokensSeq(n.kids) + (close + y);
      assert Tokens(m) + x == open + xs;
      assert Tokens(n) + y == open + ys;
      assert xs == (open + xs)[1..] == (open + ys)[1..] == ys;
      TokensSeqPrefixFree(kids, n.kids, close + x, close + y);
      assert x == (close + x)[1..] && y == (close + y)[1..];
  }

  /** A forest's markup followed by an end tag determines the forest and what follows it. */
  lemma {:induction false} TokensSeqPrefixFree(a: seq<Marked>, b: seq<Marked>, x: seq<Token>, y: seq<Token>)
    requires |x| > 0 && |y| > 0 && x[0].EndTag? && y[0].EndTag?
    requires TokensSeq(a) + x == TokensSeq(b) + y
    ensures a == b && x == y
    decreases a, 0
  {
    if a == [] {
      assert TokensSeq(a) + x == x;
      assert TokensSeq(b) + y == y;
    } else {
      assert (TokensSeq(a) + x)[0] == Tokens(a[0])[0];
      assert b != [];
      assert TokensSeq(a) + x == Tokens(a[0]) + (TokensSeq(a[1..]) + x);
      assert TokensSeq(b) + y == Tokens(b[0]) + (TokensSeq(b[1..]) + y);
      TokensPrefixFree(a[0], b[0], TokensSeq(a[1..]) + x, TokensSeq(b[1..]) + y);
      TokensSeqPrefixFree(a[1..], b[1..], x, y);
      assert a == [a[0]] + a[1..] && b == [b[0]] + b[1..];
    }
  }

  /** Two forests with the same markup are the same forest, so the markup of the second pass's result fixes it. */
  lemma TokensDetermine(a: seq<Marked>, b: seq<Marked>)
    requires TokensSeq(a) == TokensSeq(b)
    ensures a == b
  {
    var e := [EndTag(Keep, [])];
    TokensSeqPrefixFree(a, b, e, e);
  }

  /**
    A tree after the third pass: every node in the same place, with the same
    children, and renamed to a bare `P` exactly when flagged.
   */
  predicate SwappedFrom(m: Marked, n: Node)
    decreases m
  {
    && (m.MText? ==> n == Text(m.text))
    && (m.MElem? ==>
          && n.Elem?
          && n.name == (if m.mark == ToParagraph then "P" else m.name)
          && n.attrs == (if m.mark == ToParagraph then [] else m.attrs)
          && |n.kids| == |m.kids|
          && forall i :: 0 <= i < |m.kids| ==> SwappedFrom(m.kids[i], n.kids[i]))
  }

  /** The third pass keeps the text and every sibling's place; only flagged list items change name. */
  lemma {:induction false} SwapNodeSound(m: Marked)
    ensures Content(SwapNode(m)) == MContent(m)
    ensures SwappedFrom(m, SwapNode(m))
    decreases m, 1
  {
    match m
    case MText(_) =>
    case MElem(_, _, _, kids) =>
      SwapAllSound(kids);
  }

  lemma {:induction false} SwapAllSound(ms: seq<Marked>)
    ensures |SwapAll(ms)| == |ms|
    ensures ContentSeq(SwapAll(ms)) == MContentSeq(ms)
    ensures forall i :: 0 <= i < |ms| ==> SwappedFrom(ms[i], SwapAll(ms)[i])
    decreases ms, 0
  {
    if ms != [] {
      SwapNodeSound(ms[0]);
      SwapAllSound(ms[1..]);
      var r := SwapAll(ms);
      assert r[1..] == SwapAll(ms[1..]);
      forall i | 0 <= i < |ms| ensures SwappedFrom(ms[i], r[i]) {
        if i > 0 {
          assert ms[i] == ms[1..][i - 1] && r[i] == r[1..][i - 1];
        }
      }
    }
  }

  /*** One-pass reference ***/

  /** What one element becomes: its cleaned children (unwrap), a paragraph, or itself. */
  function CleanNode(parentName: string, n: Node): seq<Node>
    decreases Size(n), 1
  {
    match n
    case Text(_) => [n]
    case Elem(name, attrs, ks) =>
      var kids := CleanSeq(name, MergeTexts(ks));
      match Classify(parentName, n)
      case Unwrap => kids
      case ToParagraph => [Elem("P", [], kids)]
      case Keep => [Elem(name, StripAttributes(attrs), kids)]
  }

  function CleanSeq(parentName: string, ks: seq<Node>): seq<Node>
    decreases SizeSeq(ks), 2
  {
    if ks == [] then [] else CleanNode(parentName, ks[0]) + CleanSeq(parentName, ks[1..])
  }

  lemma {:induction false} UnwrapAllAppend(a: seq<Marked>, b: seq<Marked>)
    ensures UnwrapAll(a + b) == UnwrapAll(a) + UnwrapAll(b)
    decreases |a|
  {
    if a != [] {
      var rest := a[1..] + b;
      assert a + b == [a[0]] + rest;
      assert ([a[0]] + rest)[0] == a[0];
      assert ([a[0]] + rest)[1..] == rest;
      UnwrapAllAppend(a[1..], b);
    } else {
      assert a + b == b;
    }
  }

  lemma {:induction false} SwapAllAppend(a: seq<Marked>, b: seq<Marked>)
    ensures SwapAll(a + b) == SwapAll(a) + SwapAll(b)
    decreases |a|
  {
    if a != [] {
      var rest := a[1..] + b;
      assert a + b == [a[0]] + rest;
      assert ([a[0]] + rest)[0] == a[0];
      assert ([a[0]] + rest)[1..] == rest;
      SwapAllAppend(a[1..], b);
    } else {
      assert a + b == b;
    }
  }

  lemma UnwrapSingle(m: Marked)
    ensures UnwrapAll([m]) == UnwrapOne(m)
  {
    assert [m][1..] == [];
  }

  lemma SwapSingle(m: Marked)
    ensures SwapAll([m]) == [SwapNode(m)]
  {
    assert [m][1..] == [];
  }

  /** The three passes compute the one-pass reference. */
  lemma {:induction false} PhasesAgreeNode(parentName: string, n: Node)
    ensures SwapAll(UnwrapAll([MarkNode(parentName, n)])) == CleanNode(parentName, n)
    decreases Size(n), 1
  {
    var m := MarkNode(parentName, n);
    UnwrapSingle(m);
    match n
    case Text(_) =>
      SwapSingle(m);
    case Elem(name, attrs, ks) =>
      var merged := MergeTexts(ks);
      PhasesAgree(name, merged);
      var c := Classify(parentName, n);
      var inner := UnwrapAll(MarkSeq(name, merged));
      assert m == MElem(c, name, StripAttributes(attrs), MarkSeq(name, merged));
      if c != Unwrap {
        SwapSingle(MElem(c, name, StripAttributes(attrs), inner));
      }
  }

  lemma {:induction false} PhasesAgree(parentName: string, ks: seq<Node>)
    ensures SwapAll(UnwrapAll(MarkSeq(parentName, ks))) == CleanSeq(parentName, ks)
    decreases SizeSeq(ks), 2
  {
    if ks != [] {
      var head := [MarkNode(parentName, ks[0])];
      var tail := MarkSeq(parentName, ks[1..]);
      UnwrapAllAppend(head, tail);
      SwapAllAppend(UnwrapAll(head), UnwrapAll(tail));
      PhasesAgreeNode(parentName, ks[0]);
      PhasesAgree(parentName, ks[1..]);
    }
  }

  /*** The passes as the repair primitives ***/

  lemma {:induction false} EraseSeqAppend(a: seq<Marked>, b: seq<Marked>)
    ensures EraseSeq(a + b) == EraseSeq(a) + EraseSeq(b)
    decreases |a|
  {
    if a != [] {
      assert (a + b)[0] == a[0] && (a + b)[1..] == a[1..] + b;
      EraseSeqAppend(a[1..], b);
    } else {
      assert a + b == b;
    }
  }

  /** A tree with nothing flagged for removal comes through the second pass unchanged. */
  lemma {:induction false} UnwrapOneNothing(m: Marked)
    requires NoUnwrap(m)
    ensures UnwrapOne(m) == [m]
    decreases m, 1
  {
    if m.MElem? {
      UnwrapAllNothing(m.kids);
    }
  }

  lemma {:induction false} UnwrapAllNothing(ms: seq<Marked>)
    requires forall k :: k in ms ==> NoUnwrap(k)
    ensures UnwrapAll(ms) == ms
    decreases ms, 0
  {
    if ms != [] {
      assert ms[0] in ms;
      assert forall k :: k in ms[1..] ==> k in ms;
      UnwrapOneNothing(ms[0]);
      UnwrapAllNothing(ms[1..]);
      assert ms == [ms[0]] + ms[1..];
    }
  }

  /** No element of a marked tree is flagged for swapping. */
  predicate NoSwap(m: Marked) {
    m.MElem? ==> m.mark != ToParagraph && forall k :: k in m.kids ==> NoSwap(k)
  }

  /** A tree with nothing flagged for swapping comes through the third pass as itself, verdicts dropped. */
  lemma {:induction false} SwapNodeNothing(m: Marked)
    requires NoSwap(m)
    ensures SwapNode(m) == Erase(m)
    decreases m, 1
  {
    if m.MElem? {
      SwapAllNothing(m.kids);
    }
  }

  lemma {:induction false} SwapAllNothing(ms: seq<Marked>)
    requires forall k :: k in ms ==> NoSwap(k)
    ensures SwapAll(ms) == EraseSeq(ms)
    decreases ms, 0
  {
    if ms != [] {
      assert ms[0] in ms;
      assert forall k :: k in ms[1..] ==> k in ms;
      SwapNodeNothing(ms[0]);
      SwapAllNothing(ms[1..]);
    }
  }

  /** Erasing a sibling list with one node singled out. */
  lemma EraseAround(a: seq<Marked>, m: Marked, c: seq<Marked>)
    ensures EraseSeq(a + [m] + c) == EraseSeq(a) + [Erase(m)] + EraseSeq(c)
  {
    EraseSeqAppend(a + [m], c);
    EraseSeqAppend(a, [m]);
    assert [m][1..] == [];
  }

  /**
    When `m` is the only element of a sibling list flagged for removal, the
    second pass on that list is one `removeNode` of `m`.
   */
  lemma UnwrapIsRemoveChild(name: string, attrs: seq<Attr>, pre: seq<Marked>, m: Marked, post: seq<Marked>)
    requires m.MElem? && m.mark == Unwrap && forall k :: k in m.kids ==> NoUnwrap(k)
    requires forall k :: k in pre ==> NoUnwrap(k)
    requires forall k :: k in post ==> NoUnwrap(k)
    ensures Elem(name, attrs, EraseSeq(UnwrapAll(pre + [m] + post)))
         == RemoveChild(Elem(name, attrs, EraseSeq(pre + [m] + post)), |pre|)
  {
    var i, kids := |pre|, m.kids;
    UnwrapAllAppend(pre + [m], post);
    UnwrapAllAppend(pre, [m]);
    UnwrapSingle(m);
    UnwrapAllNothing(pre);
    UnwrapAllNothing(post);
    UnwrapAllNothing(kids);
    EraseSeqAppend(pre + kids, post);
    EraseSeqAppend(pre, kids);
    var es := EraseSeq(pre + [m] + post);
    EraseAround(pre, m, post);
    var moved := EraseSeq(kids);
    assert es[..i] == EraseSeq(pre) && Children(es[i]) == moved && es[i + 1..] == EraseSeq(post);
    var r := RemoveChild(Elem(name, attrs, es), i);
    assert r.kids == r.kids[..i] + r.kids[i..i + |moved|] + r.kids[i + |moved|..];
  }

  /**
    When `m` is the only element of a sibling list flagged for swapping, the
    third pass on that list is one `swapNode` of `m`.
   */
  lemma SwapIsSwapChild(name: string, attrs: seq<Attr>, pre: seq<Marked>, m: Marked, post: seq<Marked>)
    requires m.MElem? && m.mark == ToParagraph && forall k :: k in m.kids ==> NoSwap(k)
    requires forall k :: k in pre ==> NoSwap(k)
    requires forall k :: k in post ==> NoSwap(k)
    ensures Elem(name, attrs, SwapAll(pre + [m] + post)) == SwapChild(Elem(name, attrs, EraseSeq(pre + [m] + post)), |pre|)
  {
    var i := |pre|;
    SwapAllAppend(pre + [m], post);
    SwapAllAppend(pre, [m]);
    SwapSingle(m);
    SwapAllNothing(pre);
    SwapAllNothing(post);
    SwapAllNothing(m.kids);
    var es := EraseSeq(pre + [m] + post);
    EraseAround(pre, m, post);
    var p := Elem("P", [], EraseSeq(m.kids));
    assert SwapAll(pre + [m] + post) == EraseSeq(pre) + [p] + EraseSeq(post);
    assert p == Elem("P", [], Children(es[i]));
    var r := SwapChild(Elem(name, attrs, es), i);
    assert r.kids == SwapAll(pre + [m] + post);
  }

  /** `cleanUp`: nothing happens without a live element; its own attributes and direct text are left alone. */
  function CleanUp(live: Option<Node>): (r: Option<Node>)
    requires live.None? || live.value.Elem?
    ensures r.Some? <==> live.Some?
    ensures live.Some? ==> r.value.Elem? && r.value.name == live.value.name && r.value.attrs == live.value.attrs
    ensures live.Some? ==> Content(r.value) == Content(live.value)
    ensures live.Some? ==> forall o :: o in r.value.kids ==> TidyIn(live.value.name, o)
  {
    if live.None? then None
    else
      var e := live.value;
      PhasesAgree(e.name, e.kids);
      CleanSeqSound(e.name, e.kids);
      Some(Elem(e.name, e.attrs, SwapAll(UnwrapAll(MarkSeq(e.name, e.kids)))))
  }

  /*** What a cleaned tree looks like ***/

  /**
    An element is tidy under a parent named `parentName` when it has no
    `class`/`style`, is not `BR`/`SPAN`/`DIV`, holds non-blank text unless
    it is an `HR`, is an `LI` only inside a list, and its element
    descendants are tidy in turn.
   */
  predicate TidyIn(parentName: string, n: Node)
    decreases n
  {
    match n
    case Text(_) => true
    case Elem(name, attrs, ks) =>
      && (forall a :: a in attrs ==> a.0 !in DisallowedAttributes)
      && name !in DisallowedElements
      && (name == "HR" || !IsBlank(Content(n)))
      && (name == "LI" ==> IsList(parentName))
      && forall k :: k in ks ==> TidyIn(name, k)
  }

  lemma TidyElsewhere(q: string, parentName: string, n: Node)
    requires TidyIn(q, n)
    requires IsListItem(n) ==> IsList(parentName)
    ensures TidyIn(parentName, n)
  {
  }

  lemma {:induction false} BlankSeqParts(ks: seq<Node>)
    requires IsBlank(ContentSeq(ks))
    ensures forall k :: k in ks ==> IsBlank(Content(k))
  {
    if ks != [] {
      BlankConcat(Content(ks[0]), ContentSeq(ks[1..]));
      BlankSeqParts(ks[1..]);
    }
  }

  /** Cleaning blank content never yields a list item. */
  lemma {:induction false} BlankNoListItem(parentName: string, n: Node)
    requires IsBlank(Content(n))
    ensures forall o :: o in CleanNode(parentName, n) ==> !IsListItem(o)
    decreases Size(n), 1
  {
    match n
    case Text(_) =>
    case Elem(name, attrs, ks) =>
      if name != "HR" {
        BlankNoListItemSeq(name, MergeTexts(ks));
      }
  }

  lemma {:induction false} BlankNoListItemSeq(parentName: string, ks: seq<Node>)
    requires IsBlank(ContentSeq(ks))
    ensures forall o :: o in CleanSeq(parentName, ks) ==> !IsListItem(o)
    decreases SizeSeq(ks), 2
  {
    if ks != [] {
      BlankConcat(Content(ks[0]), ContentSeq(ks[1..]));
      BlankNoListItem(parentName, ks[0]);
      BlankNoListItemSeq(parentName, ks[1..]);
    }
  }

  /** A list item in the output always sits directly in a `UL` or `OL`. */
  lemma {:induction false} ListItemsInLists(parentName: string, n: Node)
    ensures forall o :: o in CleanNode(parentName, n) && IsListItem(o) ==> IsList(parentName)
    decreases Size(n), 1
  {
    match n
    case Text(_) =>
    case Elem(name, attrs, ks) =>
      var merged := MergeTexts(ks);
      if Classify(parentName, n) == Unwrap {
        ListItemsInListsSeq(name, merged);
        if IsList(name) {
          BlankNoListItemSeq(name, merged);
        }
      }
  }

  lemma {:induction false} ListItemsInListsSeq(parentName: string, ks: seq<Node>)
    ensures forall o :: o in CleanSeq(parentName, ks) && IsListItem(o) ==> IsList(parentName)
    decreases SizeSeq(ks), 2
  {
    if ks != [] {
      ListItemsInLists(parentName, ks[0]);
      ListItemsInListsSeq(parentName, ks[1..]);
    }
  }

  lemma ContentSingle(e: Node)
    ensures ContentSeq([e]) == Content(e)
  {
    assert [e][1..] == [];
  }

  lemma KeptTidy(parentName: string, n: Node, kids: seq<Node>)
    requires n.Elem? && Classify(parentName, n) == Keep
    requires ContentSeq(kids) == Content(n)
    requires forall o :: o in kids ==> TidyIn(n.name, o)
    ensures TidyIn(parentName, Elem(n.name, StripAttributes(n.attrs), kids))
  {
  }

  lemma ParagraphTidy(parentName: string, n: Node, kids: seq<Node>)
    requires n.Elem? && Classify(parentName, n) == ToParagraph
    requires ContentSeq(kids) == Content(n)
    requires forall o :: o in kids ==> TidyIn(n.name, o) && !IsListItem(o)
    ensures TidyIn(parentName, Elem("P", [], kids))
  {
    forall o | o in kids ensures TidyIn("P", o) {
      TidyElsewhere(n.name, "P", o);
    }
  }

  /** Cleaning keeps the text and leaves only tidy elements. */
  lemma {:induction false} CleanNodeSound(parentName: string, n: Node)
    ensures ContentSeq(CleanNode(parentName, n)) == Content(n)
    ensures forall o :: o in CleanNode(parentName, n) ==> TidyIn(parentName, o)
    decreases Size(n), 1
  {
    match n
    case Text(_) =>
      ContentSingle(n);
    case Elem(name, attrs, ks) =>
      var merged := MergeTexts(ks);
      var kids := CleanSeq(name, merged);
      CleanSeqSound(name, merged);
      ListItemsInListsSeq(name, merged);
      var c := Classify(parentName, n);
      if c == Unwrap {
        if IsList(name) {
          BlankNoListItemSeq(name, merged);
        }
        forall o | o in kids ensures TidyIn(parentName, o) {
          TidyElsewhere(name, parentName, o);
        }
      } else if c == ToParagraph {
        ParagraphTidy(parentName, n, kids);
        ContentSingle(Elem("P", [], kids));
      } else {
        KeptTidy(parentName, n, kids);
        ContentSingle(Elem(name, StripAttributes(attrs), kids));
      }
  }

  lemma {:induction false} CleanSeqSound(parentName: string, ks: seq<Node>)
    ensures ContentSeq(CleanSeq(parentName, ks)) == ContentSeq(ks)
    ensures forall o :: o in CleanSeq(parentName, ks) ==> TidyIn(parentName, o)
    decreases SizeSeq(ks), 2
  {
    if ks != [] {
      CleanNodeSound(parentName, ks[0]);
      CleanSeqSound(parentName, ks[1..]);
      ContentSeqAppend(CleanNode(parentName, ks[0]), CleanSeq(parentName, ks[1..]));
    }
  }

  /*** Running cleanUp again ***/

  /** `normalize` applied to every element below: text runs merged at every level. */
  function NormalizeNode(n: Node): Node
    decreases Size(n), 1
  {
    match n
    case Text(_) => n
    case Elem(name, attrs, ks) => Elem(name, attrs, NormalizeSeq(MergeTexts(ks)))
  }

  function NormalizeSeq(ks: seq<Node>): seq<Node>
    decreases SizeSeq(ks), 2
  {
    if ks == [] then [] else [NormalizeNode(ks[0])] + NormalizeSeq(ks[1..])
  }

  /** Every sibling list below the node is already merged. */
  predicate Normalized(n: Node) {
    match n
    case Text(_) => true
    case Elem(_, _, ks) => Merged(ks) && forall k :: k in ks ==> Normalized(k)
  }

  lemma {:induction false} NormalizedUnchanged(n: Node)
    requires Normalized(n)
    ensures NormalizeNode(n) == n
    decreases Size(n), 1
  {
    match n
    case Text(_) =>
    case Elem(name, attrs, ks) =>
      MergeNothing(ks);
      NormalizedSeqUnchanged(ks);
  }

  lemma {:induction false} NormalizedSeqUnchanged(ks: seq<Node>)
    requires forall k :: k in ks ==> Normalized(k)
    ensures NormalizeSeq(ks) == ks
    decreases SizeSeq(ks), 2
  {
    if ks != [] {
      NormalizedUnchanged(ks[0]);
      NormalizedSeqUnchanged(ks[1..]);
    }
  }

  /** On a tidy element, cleaning does nothing but merge text runs. */
  lemma {:induction false} CleanTidyNode(parentName: string, n: Node)
    requires TidyIn(parentName, n)
    ensures CleanNode(parentName, n) == [NormalizeNode(n)]
    decreases Size(n), 1
  {
    match n
    case Text(_) =>
    case Elem(name, attrs, ks) =>
      var merged := MergeTexts(ks);
      ElementsMembers(merged);
      ElementsMembers(ks);
      forall o | o in merged ensures TidyIn(name, o) {
        if o.Elem? {
          assert o in Elements(merged);
        }
      }
      CleanTidySeq(name, merged);
      StripNothing(attrs);
      assert Classify(parentName, n) == Keep;
  }

  lemma {:induction false} CleanTidySeq(parentName: string, ks: seq<Node>)
    requires forall o :: o in ks ==> TidyIn(parentName, o)
    ensures CleanSeq(parentName, ks) == NormalizeSeq(ks)
    decreases SizeSeq(ks), 2
  {
    if ks != [] {
      CleanTidyNode(parentName, ks[0]);
      CleanTidySeq(parentName, ks[1..]);
    }
  }

  /** The three passes on the live element are the reference applied to its children. */
  lemma CleanUpIsReference(live: Option<Node>)
    requires live.Some? && live.value.Elem?
    ensures CleanUp(live) == Some(Elem(live.value.name, live.value.attrs, CleanSeq(live.value.name, live.value.kids)))
  {
    PhasesAgree(live.value.name, live.value.kids);
  }

  /**
    A second `cleanUp` only merges the text runs the first one left split by
    unwrapping, inside the live element's descendants.
   */
  lemma CleanUpTwice(live: Option<Node>)
    requires live.None? || live.value.Elem?
    ensures live.None? ==> CleanUp(CleanUp(live)) == None
    ensures live.Some? ==>
      var once := CleanUp(live).value;
      CleanUp(CleanUp(live)) == Some(Elem(once.name, once.attrs, NormalizeSeq(once.kids)))
  {
    if live.Some? {
      var once := CleanUp(live);
      CleanUpIsReference(once);
      CleanTidySeq(once.value.name, once.value.kids);
    }
  }

  /** A live element whose descendants are tidy and merged is left exactly as it is. */
  lemma CleanUpFixpoint(live: Option<Node>)
    requires live.Some? && live.value.Elem?
    requires forall o :: o in live.value.kids ==> TidyIn(live.value.name, o) && Normalized(o)
    ensures CleanUp(live) == live
  {
    CleanUpIsReference(live);
    CleanTidySeq(live.value.name, live.value.kids);
    NormalizedSeqUnchanged(live.value.kids);
  }

  lemma ExampleSpan()
    ensures CleanNode("P", Elem("SPAN", [], [Text("b")])) == [Text("b")]
  {
    var span := Elem("SPAN", [], [Text("b")]);
    MergeNothing(span.kids);
    assert Classify("P", span) == Unwrap;
    assert CleanSeq("SPAN", [Text("b")]) == [Text("b")] + CleanSeq("SPAN", []);
  }

  lemma ExampleKept()
    ensures Classify("DIV", Elem("P", [], [Text("a"), Elem("SPAN", [], [Text("b")])])) == Keep
  {
    var span := Elem("SPAN", [], [Text("b")]);
    var p := Elem("P", [], [Text("a"), span]);
    ContentSingle(span);
    ContentSeqAppend([Text("a")], [span]);
    assert [Text("a")] + [span] == p.kids;
    ContentSingle(Text("a"));
    assert Content(p)[0] == 'a';
  }

  lemma ExampleInner()
    ensures CleanSeq("P", MergeTexts([Text("a"), Elem("SPAN", [], [Text("b")])])) == [Text("a"), Text("b")]
  {
    var kids := [Text("a"), Elem("SPAN", [], [Text("b")])];
    ExampleInnerMerged(kids);
    MergeNothing(kids);
    ExampleInnerClean(kids);
  }

  lemma ExampleInnerMerged(kids: seq<Node>)
    requires kids == [Text("a"), Elem("SPAN", [], [Text("b")])]
    ensures Merged(kids)
  {
    assert kids[1..][1..] == [];
  }

  lemma ExampleInnerClean(kids: seq<Node>)
    requires kids == [Text("a"), Elem("SPAN", [], [Text("b")])]
    ensures CleanSeq("P", kids) == [Text("a"), Text("b")]
  {
    var span := kids[1];
    ExampleSpan();
    assert kids[1..] == [span];
    assert CleanSeq("P", [span]) == [Text("b")] + CleanSeq("P", []);
    assert CleanSeq("P", kids) == [Text("a")] + CleanSeq("P", [span]);
  }

  lemma ExampleParagraph()
    ensures CleanSeq("DIV", [Elem("P", [], [Text("a"), Elem("SPAN", [], [Text("b")])])])
      == [Elem("P", [], [Text("a"), Text("b")])]
  {
    var p := Elem("P", [], [Text("a"), Elem("SPAN", [], [Text("b")])]);
    ExampleKept();
    ExampleInner();
    StripNothing([]);
    assert CleanNode("DIV", p) == [Elem("P", [], [Text("a"), Text("b")])];
    assert CleanSeq("DIV", [p]) == CleanNode("DIV", p) + CleanSeq("DIV", []);
  }

  lemma ExampleMerge()
    ensures NormalizeSeq([Elem("P", [], [Text("a"), Text("b")])]) == [Elem("P", [], [Text("ab")])]
  {
    var ab := [Text("a"), Text("b")];
    assert MergeTexts(ab[1..]) == [Text("b")] by {
      assert MergeTexts([Text("b")]) == MergeStep(Text("b"), []);
    }
    assert MergeTexts(ab) == MergeStep(Text("a"), [Text("b")]);
    assert [Text("b")][1..] == [] && "a" + "b" == "ab";
    assert MergeTexts(ab) == [Text("ab")];
    assert NormalizeSeq([Text("ab")]) == [Text("ab")] + NormalizeSeq([]);
    assert NormalizeSeq([Elem("P", [], ab)]) == [NormalizeNode(Elem("P", [], ab))] + NormalizeSeq([]);
  }

  /**
    `cleanUp` is not idempotent: unwrapping the `SPAN` in
    `<div><p>a<span>b</span></p></div>` leaves two text nodes side by side,
    which only the next run merges.
   */
  lemma CleanUpNotIdempotent()
    ensures var live := Some(Elem("DIV", [], [Elem("P", [], [Text("a"), Elem("SPAN", [], [Text("b")])])]));
      && CleanUp(live) == Some(Elem("DIV", [], [Elem("P", [], [Text("a"), Text("b")])]))
      && CleanUp(CleanUp(live)) == Some(Elem("DIV", [], [Elem("P", [], [Text("ab")])]))
  {
    var live := Some(Elem("DIV", [], [Elem("P", [], [Text("a"), Elem("SPAN", [], [Text("b")])])]));
    CleanUpIsReference(live);
    ExampleParagraph();
    CleanUpTwice(live);
    ExampleMerge();
  }
}

=== FILE: repair.dfy ===
/**
  The two tree repair primitives of js/editor.js: `removeNode` unwraps a
  node, `swapNode` replaces it by a fresh paragraph holding its children.
  Both act on the child at index `i` of a parent element. `cleanUp` applies
  them through its removal and swap passes, which `Normalizer.UnwrapIsRemoveChild`
  and `Normalizer.SwapIsSwapChild` relate to these single-node forms.
 */
module Repair {
  import opened Tree

  /** `removeNode`: the child at `i` disappears and its own children take its place, in order. */
  function RemoveChild(parent: Node, i: nat): (r: Node)
    requires parent.Elem? && i < |parent.kids|
    ensures r.Elem? && r.name == parent.name && r.attrs == parent.attrs
    ensures var moved := Children(parent.kids[i]);
      && |r.kids| == |parent.kids| - 1 + |moved|
      && r.kids[..i] == parent.kids[..i]
      && r.kids[i..i + |moved|] == moved
      && r.kids[i + |moved|..] == parent.kids[i + 1..]
    ensures parent.kids[i].Elem? ==> Content(r) == Content(parent)
  {
    var ks := parent.kids;
    var moved := Children(ks[i]);
    var kids := ks[..i] + moved + ks[i + 1..];
    SpliceKeepsContent(ks, i);
    assert kids[..i] == ks[..i] && kids[i..i + |moved|] == moved && kids[i + |moved|..] == ks[i + 1..];
    Elem(parent.name, parent.attrs, kids)
  }

  /** Putting an element's children in its place keeps the text of a child list. */
  lemma {:induction false} SpliceKeepsContent(ks: seq<Node>, i: nat)
    requires i < |ks|
    ensures ks[i].Elem? ==> ContentSeq(ks[..i] + Children(ks[i]) + ks[i + 1..]) == ContentSeq(ks)
  {
    if ks[i].Elem? {
      var pre, mid, post := ks[..i], Children(ks[i]), ks[i + 1..];
      var one := [ks[i]];
      assert ks == pre + one + post;
      ContentSeqAppend(pre + one, post);
      ContentSeqAppend(pre, one);
      assert ContentSeq(one) == Content(ks[i]) + ContentSeq([]);
      assert Content(ks[i]) == ContentSeq(mid);
      ContentSeqAppend(pre + mid, post);
      ContentSeqAppend(pre, mid);
    }
  }

  /**
    `swapNode` with its default type: the child at `i` is replaced by a new
    attribute-free `P` holding the same children in order; nothing else moves.
   */
  function SwapChild(parent: Node, i: nat): (r: Node)
    requires parent.Elem? && i < |parent.kids|
    ensures r.Elem? && r.name == parent.name && r.attrs == parent.attrs
    ensures |r.kids| == |parent.kids|
    ensures r.kids[i] == Elem("P", [], Children(parent.kids[i]))
    ensures forall j :: 0 <= j < |r.kids| && j != i ==> r.kids[j] == parent.kids[j]
    ensures parent.kids[i].Elem? ==> Content(r) == Content(parent)
  {
    var ks := parent.kids;
    var p := Elem("P", [], Children(ks[i]));
    assert ks == ks[..i] + [ks[i]] + ks[i + 1..];
    ContentSeqAppend(ks[..i] + [ks[i]], ks[i + 1..]);
    ContentSeqAppend(ks[..i], [ks[i]]);
    ContentSeqAppend(ks[..i] + [p], ks[i + 1..]);
    ContentSeqAppend(ks[..i], [p]);
    Elem(parent.name, parent.attrs, ks[..i] + [p] + ks[i + 1..])
  }
}

=== FILE: selection.dfy ===
/**
  Selection coordinate mapping (js/editor.js, `toolkit.selection`): a range
  whose two boundary points sit in text nodes of a container is turned into
  a pair of character offsets over the container's text and back.
  Text nodes are identified by their position among the container's text
  nodes in document (pre-)order.
 */
module Selection {
  import opened Wrappers
  import opened Strings
  import opened Tree

  /** A boundary point: the `node`-th text node of the container, `offset` characters in. */
  datatype Anchor = Anchor(node: nat, offset: nat)

  datatype Bounds = Bounds(start: Anchor, end: Anchor)

  /** The serialized selection `{start, end}`. */
  datatype Saved = Saved(start: nat, end: nat)

  predicate ValidAnchor(texts: seq<string>, a: Anchor) {
    a.node < |texts| && a.offset <= |texts[a.node]|
  }

  /** `a` is at or before `b` in document order. */
  predicate NotAfter(a: Anchor, b: Anchor) {
    a.node < b.node || (a.node == b.node && a.offset <= b.offset)
  }

  predicate ValidBounds(texts: seq<string>, b: Bounds) {
    ValidAnchor(texts, b.start) && ValidAnchor(texts, b.end) && NotAfter(b.start, b.end)
  }

  /** The text from the start of the container up to `a` (`preSelectionRange.toString()`). */
  function TextBefore(texts: seq<string>, a: Anchor): string
    requires ValidAnchor(texts, a)
  {
    Flatten(texts[..a.node]) + texts[a.node][..a.offset]
  }

  /** `range.toString()`: the characters of the text nodes between the two boundary points. */
  function SelectedText(texts: seq<string>, b: Bounds): string
    requires ValidBounds(texts, b)
  {
    var i, j := b.start.node, b.end.node;
    if i == j then texts[i][b.start.offset..b.end.offset]
    else texts[i][b.start.offset..] + Flatten(texts[i + 1..j]) + texts[j][..b.end.offset]
  }

  /** The whole text splits at any anchor into what lies before it and what follows it. */
  lemma TextAround(texts: seq<string>, a: Anchor)
    requires ValidAnchor(texts, a)
    ensures Flatten(texts) == TextBefore(texts, a) + texts[a.node][a.offset..] + Flatten(texts[a.node + 1..])
  {
    var i := a.node;
    assert texts == texts[..i] + [texts[i]] + texts[i + 1..];
    FlattenAppend(texts[..i] + [texts[i]], texts[i + 1..]);
    FlattenAppend(texts[..i], [texts[i]]);
    assert Flatten([texts[i]]) == Flatten([]) + texts[i];
    assert texts[i] == texts[i][..a.offset] + texts[i][a.offset..];
  }

  /** The text before the start anchor followed by the selected text is the text before the end anchor. */
  lemma TextBeforeEnd(texts: seq<string>, b: Bounds)
    requires ValidBounds(texts, b)
    ensures TextBefore(texts, b.start) + SelectedText(texts, b) == TextBefore(texts, b.end)
  {
    var i, j := b.start.node, b.end.node;
    var oi, oj := b.start.offset, b.end.offset;
    if i == j {
      assert texts[i][..oj] == texts[i][..oi] + texts[i][oi..oj];
    } else {
      FlattenAround(texts, i, j);
      assert texts[i] == texts[i][..oi] + texts[i][oi..];
      Regroup(Flatten(texts[..i]), texts[i][..oi], texts[i][oi..], Flatten(texts[i + 1..j]), texts[j][..oj]);
    }
  }

  /** The text of the nodes before `j` around node `i`. */
  lemma FlattenAround(texts: seq<string>, i: nat, j: nat)
    requires i < j <= |texts|
    ensures Flatten(texts[..j]) == Flatten(texts[..i]) + texts[i] + Flatten(texts[i + 1..j])
  {
    assert texts[..j] == texts[..i] + [texts[i]] + texts[i + 1..j];
    FlattenAppend(texts[..i] + [texts[i]], texts[i + 1..j]);
    FlattenAppend(texts[..i], [texts[i]]);
    assert Flatten([texts[i]]) == Flatten([]) + texts[i];
  }

  /**
    `saveSelection`: the start is the number of characters before the start
    anchor, the end is the start plus the length of the selected text.
   */
  function SaveSelection(texts: seq<string>, b: Bounds): (r: Saved)
    requires ValidBounds(texts, b)
    ensures r.start <= r.end <= |Flatten(texts)|
    ensures r.end == |TextBefore(texts, b.end)|
    ensures r.end - r.start == |SelectedText(texts, b)|
    ensures b.start == b.end ==> r.start == r.end
  {
    TextBeforeEnd(texts, b);
    TextAround(texts, b.end);
    var start := |TextBefore(texts, b.start)|;
    Saved(start, start + |SelectedText(texts, b)|)
  }

  /** The saved offsets cut the container's text into the text before the range, the selected text, and the rest. */
  lemma SavedOffsetsCut(texts: seq<string>, b: Bounds)
    requires ValidBounds(texts, b)
    ensures var r := SaveSelection(texts, b);
      && Flatten(texts)[..r.start] == TextBefore(texts, b.start)
      && Flatten(texts)[r.start..r.end] == SelectedText(texts, b)
  {
    var r := SaveSelection(texts, b);
    TextBeforeEnd(texts, b);
    TextAround(texts, b.end);
    CutPrefix(Flatten(texts), TextBefore(texts, b.end), TextBefore(texts, b.start), SelectedText(texts, b),
      texts[b.end.node][b.end.offset..], Flatten(texts[b.end.node + 1..]));
  }

  /** Text node `k` spans the character positions `[Prefix(k), Prefix(k) + length]`, ends included. */
  predicate Covers(lens: seq<nat>, k: nat, x: nat)
    requires k < |lens|
  {
    Prefix(lens, k) <= x <= Prefix(lens, k) + lens[k]
  }

  /** The first text node at or after `k` whose span holds position `x`. */
  function FirstCover(lens: seq<nat>, k: nat, x: nat): (r: Option<nat>)
    requires k <= |lens|
    ensures r.Some? ==> k <= r.value < |lens| && Covers(lens, r.value, x)
    ensures r.Some? ==> forall j :: k <= j < r.value ==> !Covers(lens, j, x)
    ensures r.None? ==> forall j :: k <= j < |lens| ==> !Covers(lens, j, x)
    decreases |lens| - k
  {
    if k == |lens| then None
    else if Covers(lens, k, x) then Some(k)
    else FirstCover(lens, k + 1, x)
  }

  /**
    One step of the `while (!stop)` loop of `restoreSelection` per text node,
    from text node `k` on, `charIndex` characters in. `None` stands for the
    walk running out of text nodes: the source loop then pops `undefined`
    for ever and never stops.
   */
  function ScanFrom(lens: seq<nat>, k: nat, charIndex: nat, start: Option<Anchor>, sel: Saved): Option<Bounds>
    requires k <= |lens|
    decreases |lens| - k
  {
    if k == |lens| then None
    else
      var next := charIndex + lens[k];
      var st := if start.None? && charIndex <= sel.start <= next then Some(Anchor(k, sel.start - charIndex)) else start;
      if st.Some? && charIndex <= sel.end <= next then Some(Bounds(st.value, Anchor(k, sel.end - charIndex)))
      else ScanFrom(lens, k + 1, next, st, sel)
  }

  /** `restoreSelection` over the lengths of the container's text nodes. */
  function Restore(lens: seq<nat>, sel: Saved): Option<Bounds> {
    ScanFrom(lens, 0, 0, None, sel)
  }

  /** Where the scan stops, the end lies inside a text node from `k` on, and so does a start it placed itself. */
  lemma {:induction false} ScanWithin(lens: seq<nat>, k: nat, charIndex: nat, start: Option<Anchor>, sel: Saved)
    requires k <= |lens|
    ensures var r := ScanFrom(lens, k, charIndex, start, sel);
      && (r.Some? ==> k <= r.value.end.node < |lens| && r.value.end.offset <= lens[r.value.end.node])
      && (r.Some? && start.Some? ==> r.value.start == start.value)
      && (r.Some? && start.None? ==>
            k <= r.value.start.node <= r.value.end.node && r.value.start.offset <= lens[r.value.start.node])
    decreases |lens| - k
  {
    if k < |lens| {
      var next := charIndex + lens[k];
      var st := if start.None? && charIndex <= sel.start <= next then Some(Anchor(k, sel.start - charIndex)) else start;
      if !(st.Some? && charIndex <= sel.end <= next) {
        ScanWithin(lens, k + 1, next, st, sel);
      }
    }
  }

  /**
    When `restoreSelection` stops, both anchors lie inside text nodes (the
    offset at most the node's length) and the start is in no later node
    than the end.
   */
  lemma RestoreWithin(lens: seq<nat>, sel: Saved)
    ensures var r := Restore(lens, sel);
      && (r.Some? ==> r.value.start.node <= r.value.end.node < |lens|)
      && (r.Some? ==> r.value.start.offset <= lens[r.value.start.node] && r.value.end.offset <= lens[r.value.end.node])
  {
    ScanWithin(lens, 0, 0, None, sel);
  }

  /** Reference placement: the end goes into the first node from `k` on that covers `e`. */
  function PlaceEnd(lens: seq<nat>, k: nat, a: Anchor, e: nat): Option<Bounds>
    requires k <= |lens|
  {
    match FirstCover(lens, k, e)
    case None => None
    case Some(m) => Some(Bounds(a, Anchor(m, e - Prefix(lens, m))))
  }

  /** Reference placement of both anchors by first covering text node. */
  function PlaceFrom(lens: seq<nat>, k: nat, sel: Saved): Option<Bounds>
    requires k <= |lens|
  {
    match FirstCover(lens, k, sel.start)
    case None => None
    case Some(j) => PlaceEnd(lens, j, Anchor(j, sel.start - Prefix(lens, j)), sel.end)
  }

  lemma {:induction false} ScanWithStart(lens: seq<nat>, k: nat, a: Anchor, sel: Saved)
    requires k <= |lens|
    ensures ScanFrom(lens, k, Prefix(lens, k), Some(a), sel) == PlaceEnd(lens, k, a, sel.end)
    decreases |lens| - k
  {
    if k < |lens| && !Covers(lens, k, sel.end) {
      ScanWithStart(lens, k + 1, a, sel);
    }
  }

  lemma {:induction false} ScanWithoutStart(lens: seq<nat>, k: nat, sel: Saved)
    requires k <= |lens|
    ensures ScanFrom(lens, k, Prefix(lens, k), None, sel) == PlaceFrom(lens, k, sel)
    decreases |lens| - k
  {
    if k < |lens| {
      if Covers(lens, k, sel.start) {
        if !Covers(lens, k, sel.end) {
          ScanWithStart(lens, k + 1, Anchor(k, sel.start - Prefix(lens, k)), sel);
        }
      } else {
        ScanWithoutStart(lens, k + 1, sel);
      }
    }
  }

  /** The scan of `restoreSelection` places each anchor in the first text node covering it. */
  lemma RestoreIsFirstCover(lens: seq<nat>, sel: Saved)
    ensures Restore(lens, sel) == PlaceFrom(lens, 0, sel)
  {
    ScanWithoutStart(lens, 0, sel);
  }

  lemma {:induction false} CoverExists(lens: seq<nat>, k: nat, x: nat)
    requires k < |lens| && Prefix(lens, k) <= x <= Total(lens)
    ensures FirstCover(lens, k, x).Some?
    decreases |lens| - k
  {
    if !Covers(lens, k, x) && k + 1 < |lens| {
      CoverExists(lens, k + 1, x);
    }
  }

  lemma CoverBounded(lens: seq<nat>, k: nat, x: nat)
    requires k < |lens| && Covers(lens, k, x)
    ensures x <= Total(lens)
  {
    PrefixMonotone(lens, k + 1, |lens|);
  }

  /** With at least one text node and `start <= end <= total`, the loop stops. */
  lemma RestoreDefined(lens: seq<nat>, sel: Saved)
    requires |lens| > 0 && sel.start <= sel.end <= Total(lens)
    ensures Restore(lens, sel).Some?
  {
    RestoreIsFirstCover(lens, sel);
    CoverExists(lens, 0, sel.start);
    var j := FirstCover(lens, 0, sel.start).value;
    CoverExists(lens, j, sel.end);
  }

  /** With no text node, or an offset beyond the text, the loop never stops. */
  lemma RestoreUndefined(lens: seq<nat>, sel: Saved)
    requires |lens| == 0 || sel.start > Total(lens) || sel.end > Total(lens)
    ensures Restore(lens, sel).None?
  {
    RestoreIsFirstCover(lens, sel);
    var f := FirstCover(lens, 0, sel.start);
    if f.Some? {
      CoverBounded(lens, f.value, sel.start);
      var g := FirstCover(lens, f.value, sel.end);
      if g.Some? {
        CoverBounded(lens, g.value, sel.end);
      }
    }
  }

  /**
    Where `restoreSelection` puts the anchors: the start in the first text
    node whose span holds `start`, at `start` minus the characters before
    that node; the end in the first such node for `end` at or after it.
   */
  lemma RestoreAnchors(lens: seq<nat>, sel: Saved)
    requires Restore(lens, sel).Some?
    ensures var b := Restore(lens, sel).value;
      && b.start.node <= b.end.node < |lens|
      && Covers(lens, b.start.node, sel.start)
      && (forall j :: 0 <= j < b.start.node ==> !Covers(lens, j, sel.start))
      && b.start.offset == sel.start - Prefix(lens, b.start.node)
      && Covers(lens, b.end.node, sel.end)
      && (forall j :: b.start.node <= j < b.end.node ==> !Covers(lens, j, sel.end))
      && b.end.offset == sel.end - Prefix(lens, b.end.node)
  {
    RestoreIsFirstCover(lens, sel);
  }

  /** A collapsed serialized selection is restored as a collapsed range. */
  lemma RestoreCollapsed(lens: seq<nat>, sel: Saved)
    requires sel.start == sel.end && Restore(lens, sel).Some?
    ensures Restore(lens, sel).value.start == Restore(lens, sel).value.end
  {
    RestoreAnchors(lens, sel);
  }

  /** Round trip: saving the restored range gives back the offsets restored from. */
  lemma SaveRestore(texts: seq<string>, sel: Saved)
    requires |texts| > 0 && sel.start <= sel.end <= |Flatten(texts)|
    ensures Restore(Lengths(texts), sel).Some?
    ensures ValidBounds(texts, Restore(Lengths(texts), sel).value)
    ensures SaveSelection(texts, Restore(Lengths(texts), sel).value) == sel
  {
    var lens := Lengths(texts);
    PrefixIsFlattenLength(texts, |texts|);
    assert texts[..|texts|] == texts;
    RestoreDefined(lens, sel);
    RestoreAnchors(lens, sel);
    var b := Restore(lens, sel).value;
    TextBeforeLength(texts, b.start);
    TextBeforeLength(texts, b.end);
    SavedFromLengths(texts, b, sel);
  }

  /** The text before an anchor is as long as the nodes before it plus the offset. */
  lemma TextBeforeLength(texts: seq<string>, a: Anchor)
    requires ValidAnchor(texts, a)
    ensures |TextBefore(texts, a)| == Prefix(Lengths(texts), a.node) + a.offset
  {
    PrefixIsFlattenLength(texts, a.node);
  }

  /** Saving a range whose anchors have `sel`'s offsets before them gives `sel`. */
  lemma SavedFromLengths(texts: seq<string>, b: Bounds, sel: Saved)
    requires ValidBounds(texts, b)
    requires |TextBefore(texts, b.start)| == sel.start && |TextBefore(texts, b.end)| == sel.end
    ensures SaveSelection(texts, b) == sel
  {
  }

  /** Round trip the other way: the restored range covers the same characters as the saved one. */
  lemma RestoreSave(texts: seq<string>, b: Bounds)
    requires ValidBounds(texts, b)
    ensures Restore(Lengths(texts), SaveSelection(texts, b)).Some?
    ensures ValidBounds(texts, Restore(Lengths(texts), SaveSelection(texts, b)).value)
    ensures SaveSelection(texts, Restore(Lengths(texts), SaveSelection(texts, b)).value) == SaveSelection(texts, b)
  {
    SaveRestore(texts, SaveSelection(texts, b));
  }

  function NodeTexts(o: Option<Node>): seq<string> {
    if o.Some? then TextNodes(o.value) else []
  }

  /** Text nodes still to be visited, in the order the stack pops them (top of stack = last element). */
  function StackTexts(stack: seq<Option<Node>>): seq<string> {
    if stack == [] then [] else NodeTexts(stack[|stack| - 1]) + StackTexts(stack[..|stack| - 1])
  }

  function NodeWeight(o: Option<Node>): nat {
    if o.Some? then Size(o.value) else 1
  }

  function StackWeight(stack: seq<Option<Node>>): nat {
    if stack == [] then 0 else NodeWeight(stack[|stack| - 1]) + StackWeight(stack[..|stack| - 1])
  }

  lemma StackPush(stack: seq<Option<Node>>, o: Option<Node>)
    ensures StackTexts(stack + [o]) == NodeTexts(o) + StackTexts(stack)
    ensures StackWeight(stack + [o]) == NodeWeight(o) + StackWeight(stack)
  {
    assert (stack + [o])[..|stack|] == stack;
  }

  /** The children as `Some` entries, last child first: the order in which they are pushed. */
  function Reversed(kids: seq<Node>): (r: seq<Option<Node>>)
    ensures |r| == |kids|
  {
    if kids == [] then [] else Reversed(kids[1..]) + [Some(kids[0])]
  }

  lemma {:induction false} StackOfReversed(stack: seq<Option<Node>>, kids: seq<Node>)
    ensures StackTexts(stack + Reversed(kids)) == TextNodesSeq(kids) + StackTexts(stack)
    ensures StackWeight(stack + Reversed(kids)) == SizeSeq(kids) + StackWeight(stack)
    decreases |kids|
  {
    if kids != [] {
      var k, rest := kids[0], kids[1..];
      var inner := stack + Reversed(rest);
      assert stack + Reversed(kids) == inner + [Some(k)];
      StackPush(inner, Some(k));
      StackOfReversed(stack, rest);
      assert NodeTexts(Some(k)) == TextNodes(k);
      assert NodeWeight(Some(k)) == Size(k);
      ConcatAssoc(TextNodes(k), TextNodesSeq(rest), StackTexts(stack));
    } else {
      assert stack + Reversed(kids) == stack;
    }
  }

  /**
    The inner loop of `restoreSelection`: push `childNodes[i]` for `i` from
    `childNodes.length` (which reads `undefined`) down to 0, so that the
    children pop in document order.
   */
  method PushChildren(stack: seq<Option<Node>>, kids: seq<Node>) returns (pushed: seq<Option<Node>>)
    ensures pushed == stack + [None] + Reversed(kids)
  {
    pushed := stack + [None];  // i == childNodes.length reads undefined
    var i: int := |kids| - 1;
    while i >= 0
      invariant -1 <= i < |kids|
      invariant pushed == stack + [None] + Reversed(kids[i + 1..])
      decreases i
    {
      assert kids[i..][1..] == kids[i + 1..];
      pushed := pushed + [Some(kids[i])];
      i := i - 1;
    }
    assert kids[0..] == kids;
  }

  /** After pushing, the stack yields the children's text nodes first, then what it held before. */
  lemma PushedChildren(stack: seq<Option<Node>>, kids: seq<Node>)
    ensures StackTexts(stack + [None] + Reversed(kids)) == TextNodesSeq(kids) + StackTexts(stack)
    ensures StackWeight(stack + [None] + Reversed(kids)) == StackWeight(stack) + 1 + SizeSeq(kids)
  {
    StackPush(stack, None);
    StackOfReversed(stack + [None], kids);
  }

  /** The local variables of the `restoreSelection` loop. */
  datatype ScanVars = ScanVars(charIndex: nat, textIndex: nat, foundStart: bool, rangeStart: Anchor, rangeEnd: Anchor, stop: bool)

  /** The body of the loop for a popped text node of `len` characters. */
  function VisitText(v: ScanVars, len: nat, sel: Saved): ScanVars {
    var nextCharIndex := v.charIndex + len;
    var v1 :=
      if !v.foundStart && v.charIndex <= sel.start <= nextCharIndex
      then v.(rangeStart := Anchor(v.textIndex, sel.start - v.charIndex), foundStart := true)
      else v;
    var v2 :=
      if v1.foundStart && v.charIndex <= sel.end <= nextCharIndex
      then v1.(rangeEnd := Anchor(v.textIndex, sel.end - v.charIndex), stop := true)
      else v1;
    v2.(charIndex := nextCharIndex, textIndex := v.textIndex + 1)
  }

  /**
    One pass of the loop body: the counters advance past the node, the
    start is placed once and never moved, the end is placed in this node
    exactly when the start is found and the node covers the end offset,
    and a stopped scan stays stopped.
   */
  lemma VisitTextSteps(v: ScanVars, len: nat, sel: Saved)
    ensures var r := VisitText(v, len, sel);
      && r.textIndex == v.textIndex + 1 && r.charIndex == v.charIndex + len
      && (v.foundStart ==> r.foundStart && r.rangeStart == v.rangeStart)
      && (v.stop ==> r.stop)
    ensures var r := VisitText(v, len, sel);
      && (r.foundStart && !v.foundStart <==> !v.foundStart && v.charIndex <= sel.start <= v.charIndex + len)
      && (r.foundStart && !v.foundStart ==> r.rangeStart.node == v.textIndex && v.charIndex + r.rangeStart.offset == sel.start)
    ensures var r := VisitText(v, len, sel);
      && (r.stop && !v.stop <==> !v.stop && r.foundStart && v.charIndex <= sel.end <= v.charIndex + len)
      && (r.rangeEnd != v.rangeEnd ==> r.stop && r.rangeEnd.node == v.textIndex && v.charIndex + r.rangeEnd.offset == sel.end)
    ensures var r := VisitText(v, len, sel);
      r.stop && !v.stop ==> r.rangeEnd.node == v.textIndex && v.charIndex + r.rangeEnd.offset == sel.end
  {
  }

  /** The loop variables agree with the reference scan over the lengths. */
  predicate ScanAgrees(lens: seq<nat>, sel: Saved, v: ScanVars) {
    && v.textIndex <= |lens|
    && (!v.stop ==> ScanFrom(lens, v.textIndex, v.charIndex, if v.foundStart then Some(v.rangeStart) else None, sel) == Restore(lens, sel))
    && (v.stop ==> Restore(lens, sel) == Some(Bounds(v.rangeStart, v.rangeEnd)))
  }

  lemma VisitTextAgrees(lens: seq<nat>, sel: Saved, v: ScanVars)
    requires ScanAgrees(lens, sel, v) && !v.stop && v.textIndex < |lens|
    ensures ScanAgrees(lens, sel, VisitText(v, lens[v.textIndex], sel))
  {
  }

  lemma ScanNeedsNodes(lens: seq<nat>, k: nat, c: nat, st: Option<Anchor>, sel: Saved)
    requires k <= |lens| && ScanFrom(lens, k, c, st, sel).Some?
    ensures k < |lens|
  {
  }

  lemma TextPopped(texts: seq<string>, k: nat, s: string, later: seq<string>)
    requires k <= |texts| && texts[k..] == [s] + later
    ensures k < |texts| && texts[k] == s && later == texts[k + 1..]
  {
    assert texts[k..][1..] == texts[k + 1..];
  }

  /** A popped text node is the next one in document order, and visiting it keeps the scan in step with the reference. */
  lemma TextStep(texts: seq<string>, sel: Saved, v: ScanVars, s: string, later: seq<string>)
    requires v.textIndex <= |texts| && texts[v.textIndex..] == [s] + later
    requires ScanAgrees(Lengths(texts), sel, v) && !v.stop
    ensures var w := VisitText(v, |s|, sel);
      && w.textIndex == v.textIndex + 1 <= |texts| && later == texts[w.textIndex..]
      && ScanAgrees(Lengths(texts), sel, w)
  {
    var lens := Lengths(texts);
    TextPopped(texts, v.textIndex, s, later);
    assert lens[v.textIndex] == |s|;
    VisitTextAgrees(lens, sel, v);
  }

  /** Replacing a popped element by `undefined` and its children keeps the texts ahead and lowers the weight. */
  lemma ElemStep(rest: seq<Option<Node>>, n: Node)
    requires n.Elem?
    ensures StackTexts(rest + [None] + Reversed(n.kids)) == TextNodes(n) + StackTexts(rest)
    ensures StackWeight(rest + [None] + Reversed(n.kids)) < Size(n) + StackWeight(rest)
  {
    assert TextNodes(n) == TextNodesSeq(n.kids);
    assert Size(n) == 2 + SizeSeq(n.kids);
    PushedChildren(rest, n.kids);
  }

  /**
    `restoreSelection` as written: a depth-first walk with an explicit stack
    (children pushed last-to-first after an `undefined` entry, so they pop in
    order), accumulating text lengths until a text node covers the end.
   */
  method RestoreSelection(container: Node, sel: Saved) returns (b: Bounds)
    requires TextNodes(container) != []
    requires sel.start <= sel.end <= |Content(container)|
    ensures Restore(Lengths(TextNodes(container)), sel) == Some(b)
    ensures ValidBounds(TextNodes(container), b)
    ensures SaveSelection(TextNodes(container), b) == sel
  {
    ghost var texts := TextNodes(container);
    ghost var lens := Lengths(texts);
    TotalIsContentLength(container);
    ContentIsTextNodes(container);
    RestoreDefined(lens, sel);
    var stack: seq<Option<Node>> := [Some(container)];
    var v := ScanVars(0, 0, false, Anchor(0, 0), Anchor(0, 0), false);
    StackPush([], Some(container));
    while !v.stop
      invariant v.textIndex <= |texts| && StackTexts(stack) == texts[v.textIndex..]
      invariant Restore(lens, sel).Some?
      invariant ScanAgrees(lens, sel, v)
      decreases StackWeight(stack)
    {
      // the scan is unfinished, so a text node lies ahead and the stack is not empty
      ScanNeedsNodes(lens, v.textIndex, v.charIndex, if v.foundStart then Some(v.rangeStart) else None, sel);
      var node := stack[|stack| - 1];
      stack := stack[..|stack| - 1];
      if node.Some? && node.value.Text? {
        TextStep(texts, sel, v, node.value.text, StackTexts(stack));
        v := VisitText(v, |node.value.text|, sel);
      } else if node.Some? {
        ElemStep(stack, node.value);
        stack := PushChildren(stack, node.value.kids);
      }
    }
    b := Bounds(v.rangeStart, v.rangeEnd);
    SaveRestore(texts, sel);
  }

  /** The largest boundary offset in a node: its characters, or its children. */
  function Extent(n: Node): nat {
    match n
    case Text(s) => |s|
    case Elem(_, _, ks) => |ks|
  }

  function ContentBefore(n: Node, offset: nat): string
    requires offset <= Extent(n)
  {
    match n
    case Text(s) => s[..offset]
    case Elem(_, _, ks) => ContentSeq(ks[..offset])
  }

  function ContentAfter(n: Node, offset: nat): string
    requires offset <= Extent(n)
  {
    match n
    case Text(s) => s[offset..]
    case Elem(_, _, ks) => ContentSeq(ks[offset..])
  }

  lemma ContentSplit(n: Node, offset: nat)
    requires offset <= Extent(n)
    ensures Content(n) == ContentBefore(n, offset) + ContentAfter(n, offset)
  {
    match n
    case Text(s) =>
      assert s == s[..offset] + s[offset..];
    case Elem(_, _, ks) =>
      assert ks == ks[..offset] + ks[offset..];
      ContentSeqAppend(ks[..offset], ks[offset..]);
  }

  /**
    `atEndOfNode`: the text from the range's end point to the end of its
    container node is empty, i.e. the text before the end point is all of it.
   */
  function AtEndOfNode(endContainer: Node, endOffset: nat): (r: bool)
    requires endOffset <= Extent(endContainer)
    ensures r <==> ContentBefore(endContainer, endOffset) == Content(endContainer)
    ensures endContainer.Text? ==> (r <==> endOffset == |endContainer.text|)
  {
    ContentSplit(endContainer, endOffset);
    |ContentAfter(endContainer, endOffset)| == 0
  }
}

=== FILE: strings.dfy ===
/**
  Character and string rules of ECMAScript 5.1 that the editor relies on:
  the `\s` class of regular expressions (section 15.10.2.12), which is the
  union of WhiteSpace (section 7.2) and LineTerminator (section 7.3), and
  `String.prototype.trim` (section 15.5.4.20), which strips the same set.
 */
module Strings {

  /** WhiteSpace or LineTerminator, Zs taken from current Unicode (U+180E excluded). */
  predicate IsWs(c: char) {
    var n := c as int;
    // WhiteSpace: TAB, VT, FF, SP, NBSP, BOM
    n == 0x09 || n == 0x0B || n == 0x0C || n == 0x20 || n == 0xA0 || n == 0xFEFF
    // remaining Zs code points
    || n == 0x1680 || (0x2000 <= n <= 0x200A) || n == 0x202F || n == 0x205F || n == 0x3000
    // LineTerminator: LF, CR, LS, PS
    || n == 0x0A || n == 0x0D || n == 0x2028 || n == 0x2029
  }

  /** `/^\s*$/.test(s)`: every character is whitespace (vacuously so for ""). */
  predicate IsBlank(s: string) {
    forall i :: 0 <= i < |s| ==> IsWs(s[i])
  }

  function TrimStart(s: string): (r: string)
    ensures |r| <= |s| && r == s[|s| - |r|..]
    ensures r != [] ==> !IsWs(r[0])
  {
    if s != [] && IsWs(s[0]) then TrimStart(s[1..]) else s
  }

  function TrimEnd(s: string): (r: string)
    ensures |r| <= |s| && r == s[..|r|]
    ensures r != [] ==> !IsWs(r[|r| - 1])
  {
    if s != [] && IsWs(s[|s| - 1]) then TrimEnd(s[..|s| - 1]) else s
  }

  /** `s.trim()` */
  function Trim(s: string): string {
    TrimEnd(TrimStart(s))
  }

  /** What `TrimStart` drops is whitespace. */
  lemma {:induction false} TrimStartDropsBlank(s: string)
    ensures IsBlank(s[..|s| - |TrimStart(s)|])
    decreases |s|
  {
    if s != [] && IsWs(s[0]) {
      TrimStartDropsBlank(s[1..]);
      var k := |s| - |TrimStart(s)|;
      forall i | 0 <= i < k ensures IsWs(s[..k][i]) {
        if i > 0 {
          assert s[..k][i] == s[1..][..k - 1][i - 1];
        }
      }
    }
  }

  /** What `TrimEnd` drops is whitespace. */
  lemma {:induction false} TrimEndDropsBlank(s: string)
    ensures IsBlank(s[|TrimEnd(s)|..])
    decreases |s|
  {
    if s != [] && IsWs(s[|s| - 1]) {
      var front := s[..|s| - 1];
      TrimEndDropsBlank(front);
      var k := |TrimEnd(s)|;
      forall i | 0 <= i < |s| - k ensures IsWs(s[k..][i]) {
        if k + i < |s| - 1 {
          assert s[k..][i] == front[k..][i];
        }
      }
    }
  }

  /** `r` is the part of `s` from index `i` on, with nothing but whitespace around it. */
  predicate IsMiddle(s: string, i: nat, r: string) {
    i + |r| <= |s| && r == s[i..i + |r|] && IsBlank(s[..i]) && IsBlank(s[i + |r|..])
  }

  /**
    What `trim` leaves is the middle of `s`: everything removed before and
    after it is whitespace, and it neither starts nor ends with whitespace.
   */
  lemma TrimIsMiddle(s: string)
    ensures IsMiddle(s, |s| - |TrimStart(s)|, Trim(s))
    ensures Trim(s) != [] ==> !IsWs(Trim(s)[0]) && !IsWs(Trim(s)[|Trim(s)| - 1])
  {
    var t := TrimStart(s);
    TrimStartDropsBlank(s);
    TrimEndDropsBlank(t);
    MiddleOf(s, t, TrimEnd(t));
    TrimEnds(s);
  }

  /** What `trim` leaves neither starts nor ends with whitespace. */
  lemma TrimEnds(s: string)
    ensures Trim(s) != [] ==> !IsWs(Trim(s)[0]) && !IsWs(Trim(s)[|Trim(s)| - 1])
  {
  }

  /** A prefix `r` of a suffix `t` of `s` is a middle of `s` when what lies around it is whitespace. */
  lemma MiddleOf(s: string, t: string, r: string)
    requires |t| <= |s| && t == s[|s| - |t|..] && |r| <= |t| && r == t[..|r|]
    requires IsBlank(s[..|s| - |t|]) && IsBlank(t[|r|..])
    ensures IsMiddle(s, |s| - |t|, r)
  {
    var i := |s| - |t|;
    assert t[|r|..] == s[i + |r|..];
  }

  lemma {:induction false} TrimStartEmptyIffBlank(s: string)
    ensures TrimStart(s) == [] <==> IsBlank(s)
    decreases |s|
  {
    if s != [] && IsWs(s[0]) {
      var t := s[1..];
      TrimStartEmptyIffBlank(t);
      assert TrimStart(s) == TrimStart(t);
      assert IsBlank(s) <==> IsBlank(t) by {
        if IsBlank(t) {
          forall i | 0 <= i < |s| ensures IsWs(s[i]) {
            if i > 0 { assert s[i] == t[i - 1]; }
          }
        }
        if IsBlank(s) {
          forall i | 0 <= i < |t| ensures IsWs(t[i]) {
            assert t[i] == s[i + 1];
          }
        }
      }
    } else if s != [] {
      assert !IsWs(s[0]);
    }
  }

  /** `s.trim() === ""` exactly when `/^\s*$/` accepts `s`: the two tests the editor mixes agree. */
  lemma TrimEmptyIffBlank(s: string)
    ensures Trim(s) == [] <==> IsBlank(s)
  {
    TrimStartEmptyIffBlank(s);
    TrimEndEmptyOnlyIfBlank(TrimStart(s));
  }

  lemma {:induction false} TrimEndEmptyOnlyIfBlank(s: string)
    ensures TrimEnd(s) == [] ==> IsBlank(s)
    decreases |s|
  {
    if s != [] && IsWs(s[|s| - 1]) {
      assert IsWs(s[|s| - 1]);
      TrimEndEmptyOnlyIfBlank(s[..|s| - 1]);
      if TrimEnd(s) == [] {
        forall i | 0 <= i < |s| ensures IsWs(s[i]) {
          if i < |s| - 1 { assert s[i] == s[..|s| - 1][i]; }
        }
      }
    }
  }

  lemma BlankConcat(a: string, b: string)
    ensures IsBlank(a + b) <==> IsBlank(a) && IsBlank(b)
  {
    if IsBlank(a + b) {
      forall i | 0 <= i < |a| ensures IsWs(a[i]) { assert a[i] == (a + b)[i]; }
      forall i | 0 <= i < |b| ensures IsWs(b[i]) { assert b[i] == (a + b)[|a| + i]; }
    }
  }

  predicate StartsWith(s: string, prefix: string) {
    |prefix| <= |s| && s[..|prefix|] == prefix
  }

  /** ASCII case mapping of `toLowerCase`; no other character lowers to `h` or a digit. */
  function ToLower(s: string): (r: string)
    ensures |r| == |s|
    ensures forall i :: 0 <= i < |s| ==>
      r[i] == (if 'A' <= s[i] <= 'Z' then (s[i] as int + 32) as char else s[i])
  {
    if s == [] then []
    else [if 'A' <= s[0] <= 'Z' then (s[0] as int + 32) as char else s[0]] + ToLower(s[1..])
  }

  /** Concatenation of a sequence of sequences, in order. */
  function Flatten<T>(xss: seq<seq<T>>): seq<T> {
    if xss == [] then [] else Flatten(xss[..|xss| - 1]) + xss[|xss| - 1]
  }

  lemma FlattenSnoc<T>(xss: seq<seq<T>>, x: seq<T>)
    ensures Flatten(xss + [x]) == Flatten(xss) + x
  {
    assert (xss + [x])[..|xss|] == xss;
  }

  lemma {:induction false} FlattenAppend<T>(a: seq<seq<T>>, b: seq<seq<T>>)
    ensures Flatten(a + b) == Flatten(a) + Flatten(b)
    decreases |b|
  {
    if b == [] {
      assert a + b == a;
    } else {
      var front, x := b[..|b| - 1], b[|b| - 1];
      assert b == front + [x];
      assert a + b == (a + front) + [x];
      FlattenSnoc(a + front, x);
      FlattenSnoc(front, x);
      FlattenAppend(a, front);
    }
  }

  // Regrouping facts about concatenation, used by the text-offset proofs.

  lemma ConcatAssoc<T>(a: seq<T>, b: seq<T>, c: seq<T>)
    ensures a + (b + c) == (a + b) + c
  {
  }

  lemma Regroup<T>(a: seq<T>, p: seq<T>, q: seq<T>, m: seq<T>, e: seq<T>)
    ensures (a + p) + (q + m + e) == a + (p + q) + m + e
  {
  }

  /** A whole that begins with `a` then `b` has them at the matching slices. */
  lemma CutPrefix<T>(whole: seq<T>, ab: seq<T>, a: seq<T>, b: seq<T>, x: seq<T>, y: seq<T>)
    requires whole == ab + x + y && ab == a + b
    ensures whole[..|a|] == a && whole[|a|..|a| + |b|] == b
  {
    assert whole == a + (b + (x + y));
  }
}

=== FILE: tree.dfy ===
/**
  The document tree the editor works on: text nodes and element nodes with a
  node name (upper-case for HTML elements, as `nodeName` reports it), an
  ordered attribute list and ordered children.
 */
module Tree {
  import opened Strings

  /** An attribute as (name, value). */
  type Attr = (string, string)

  datatype Node =
    | Text(text: string)
    | Elem(name: string, attrs: seq<Attr>, kids: seq<Node>)

  /** `childNodes`: a text node has none. */
  function Children(n: Node): seq<Node> {
    if n.Elem? then n.kids else []
  }

  /** `textContent`: the node's own characters, or those of its descendants in document order. */
  function Content(n: Node): string {
    match n
    case Text(s) => s
    case Elem(_, _, ks) => ContentSeq(ks)
  }

  function ContentSeq(ks: seq<Node>): string {
    if ks == [] then [] else Content(ks[0]) + ContentSeq(ks[1..])
  }

  /** The text nodes under (and including) `n`, taken in pre-order: what every text walk of the editor visits. */
  function TextNodes(n: Node): seq<string> {
    match n
    case Text(s) => [s]
    case Elem(_, _, ks) => TextNodesSeq(ks)
  }

  function TextNodesSeq(ks: seq<Node>): seq<string> {
    if ks == [] then [] else TextNodes(ks[0]) + TextNodesSeq(ks[1..])
  }

  /** A measure that text merging and unwrapping never increase. */
  function Size(n: Node): nat {
    match n
    case Text(_) => 1
    case Elem(_, _, ks) => 2 + SizeSeq(ks)
  }

  function SizeSeq(ks: seq<Node>): nat {
    if ks == [] then 0 else Size(ks[0]) + SizeSeq(ks[1..])
  }

  lemma {:induction false} ContentSeqAppend(a: seq<Node>, b: seq<Node>)
    ensures ContentSeq(a + b) == ContentSeq(a) + ContentSeq(b)
    decreases |a|
  {
    if a != [] {
      assert (a + b)[1..] == a[1..] + b;
      ContentSeqAppend(a[1..], b);
    } else {
      assert a + b == b;
    }
  }

  lemma {:induction false} TextNodesSeqAppend(a: seq<Node>, b: seq<Node>)
    ensures TextNodesSeq(a + b) == TextNodesSeq(a) + TextNodesSeq(b)
    decreases |a|
  {
    if a != [] {
      assert (a + b)[1..] == a[1..] + b;
      TextNodesSeqAppend(a[1..], b);
    } else {
      assert a + b == b;
    }
  }

  lemma {:induction false} SizeSeqAppend(a: seq<Node>, b: seq<Node>)
    ensures SizeSeq(a + b) == SizeSeq(a) + SizeSeq(b)
    decreases |a|
  {
    if a != [] {
      assert (a + b)[1..] == a[1..] + b;
      SizeSeqAppend(a[1..], b);
    } else {
      assert a + b == b;
    }
  }

  lemma FlattenCons<T>(x: seq<T>, rest: seq<seq<T>>)
    ensures Flatten([x] + rest) == x + Flatten(rest)
  {
    FlattenAppend([x], rest);
    assert Flatten([x]) == Flatten([]) + x;
  }

  /** `textContent` is the concatenation of the text nodes in document order. */
  lemma {:induction false} ContentIsTextNodes(n: Node)
    ensures Content(n) == Flatten(TextNodes(n))
    decreases n, 1
  {
    match n
    case Text(s) =>
      assert Flatten([s]) == Flatten([]) + s;
    case Elem(_, _, ks) =>
      ContentSeqIsTextNodes(ks);
  }

  lemma {:induction false} ContentSeqIsTextNodes(ks: seq<Node>)
    ensures ContentSeq(ks) == Flatten(TextNodesSeq(ks))
    decreases ks, 0
  {
    if ks != [] {
      ContentIsTextNodes(ks[0]);
      ContentSeqIsTextNodes(ks[1..]);
      FlattenAppend(TextNodes(ks[0]), TextNodesSeq(ks[1..]));
    }
  }

  /** Lengths of a list of text-node contents. */
  function Lengths(texts: seq<string>): (lens: seq<nat>)
    ensures |lens| == |texts| && forall i :: 0 <= i < |texts| ==> lens[i] == |texts[i]|
  {
    seq(|texts|, i requires 0 <= i < |texts| => |texts[i]|)
  }

  /** Sum of the first `k` lengths: the character index at which node `k` starts. */
  function Prefix(lens: seq<nat>, k: nat): nat
    requires k <= |lens|
  {
    if k == 0 then 0 else Prefix(lens, k - 1) + lens[k - 1]
  }

  function Total(lens: seq<nat>): nat {
    Prefix(lens, |lens|)
  }

  lemma {:induction false} PrefixMonotone(lens: seq<nat>, j: nat, k: nat)
    requires j <= k <= |lens|
    ensures Prefix(lens, j) <= Prefix(lens, k)
    decreases k - j
  {
    if j < k {
      PrefixMonotone(lens, j, k - 1);
    }
  }

  /** The prefix sums of the lengths are the lengths of the concatenated prefixes. */
  lemma {:induction false} PrefixIsFlattenLength(texts: seq<string>, k: nat)
    requires k <= |texts|
    ensures Prefix(Lengths(texts), k) == |Flatten(texts[..k])|
    decreases k
  {
    if k > 0 {
      PrefixIsFlattenLength(texts, k - 1);
      assert texts[..k][..k - 1] == texts[..k - 1];
    }
  }

  /** The text nodes' lengths add up to the length of `textContent`. */
  lemma TotalIsContentLength(n: Node)
    ensures Total(Lengths(TextNodes(n))) == |Content(n)|
  {
    var texts := TextNodes(n);
    PrefixIsFlattenLength(texts, |texts|);
    assert texts[..|texts|] == texts;
    ContentIsTextNodes(n);
  }
}

=== FILE: wrappers.dfy ===
/** Optional values used across the model. */
module Wrappers {

  /** A value that may be absent: `undefined` in the editor's terms. */
  datatype Option<+T> = None | Some(value: T)
}
